=== FILE: README.md ===
# merge → deduplicate → transform, modelled in Dafny

This project models a batch ETL pipeline over JSON records. Records arrive in
batches (datasets). They are merged into one list, deduplicated on a
composite key built from dot-paths, and transformed before and after the
dedup step. The repository holds two implementations side by side, and both
are modelled as written:

- **The root pipeline (`src/`).**
  - `mergeBatches` tags every item with its batch's provenance.
  - `deduplicate` keeps the first record of each key and returns duplicates and conservation stats. It is lenient: a non-array gives an empty result.
  - `normalizeStrings` tidies string fields.
  - `sortById` is a stable sort on `String(id)`.
  - A name → transform registry falls back to identity.
  - `main.js` adds argument parsing, configuration overrides and defaults, input-shape recognition and the stage chain that builds the output payload.
- **The scraper variant (`merge-dedup-transform-datasets-scraper/src/`).**
  - `deepGet` / `buildDedupKey` build a key with a `__MISSING__` marker.
  - The strict `deduplicate` and `mergeDatasets` throw `TypeError` on bad input.
  - `runTransforms` isolates faults per item: a transform that throws leaves that item as it was.
  - The key-value projection of `exportToKvStore` is a map where the last item wins.

## How it is modelled

- **Values.**
  - A JSON value is the datatype `Json.Json`.
  - An object is an association list of `(key, value)` fields. Their order stands for JavaScript's own-key enumeration order: integer-like keys first in ascending order, then the other keys in insertion order. `JSON.stringify`, `Object.entries`, spread and `Object.assign` all follow it.
  - Numbers are integers.
  - `Json` also models the JavaScript pieces the code relies on: truthiness, own-property reads (`Lookup`, `Member`), property assignment (`Assign`, where an existing key keeps its place and a new key goes last, as it does for a key that is not integer-like), `JSON.stringify` (`Serialize`), `String(v)` (`ToJsString`) and dot-path resolution (`PathValue`).
- **One spec for both dedups.** `FirstOccurrence` states once, over any key function, what both deduplicators compute: `Unique` holds the first occurrences and `Duplicates` the repeats. Each deduplicator loop is proved equal to it.
- **One spec for both path resolvers.** Both `getNestedValue` and `deepGet` are loops proved equal to the one spec function `Json.PathValue`.
- **Loops become methods.** Code that loops and updates variables becomes a method with a loop, proved against a specification function:
  - `GetNestedValue`, `Deduplicate`, `MergeBatches`, `NormalizeStrings`;
  - `ParseArgs`, `Settle`;
  - `DeepGet`, the strict `Deduplicate`, `MergeDatasets`, `BuildKvStore`.
- **Expressions become functions.** Code made of expressions (`buildKey`, `normaliseToBatches`, `runTransforms`, the registry) becomes functions.
- **Sorting.** `sortById` calls the library's stable in-place sort. It is modelled as a stable insertion sort function. The model proves that function sorted, a permutation, stable and idempotent.
- **Errors.** A thrown error is a `Wrappers.Result` failure carrying the source's message. A property read on `null` becomes `NullPropertyRead`; the runtime would throw a `TypeError`.

Points where the code's behaviour is easy to misread:

- **Whole-record key.** With no dedup fields, `buildKey` keys a record by `JSON.stringify(item)` (src/utils/deduplication.js:26-28). That string follows the own-key enumeration order, so two records whose non-integer-like keys were inserted in different orders get different keys (`Deduplication.WholeRecordKeyFollowsFieldOrder`).
- **Nested objects in key parts.** Field-based key parts also serialise nested objects in insertion order, not with sorted keys.
- **Pipeline-level dedup.** Deduplication runs after provenance tagging (src/main.js:183-192). With no dedup fields, records from different batches collide only when the batches share both `datasetId` and `datasetOffset` and the items agree on every field other than `__datasetId` and `__datasetOffset`, which enrichment overwrites (src/utils/merging.js:36-39). An explicit `datasetId` may repeat or equal a generated `<fallback>-<idx>`, and the offset defaults to 0.

## Model

| member | source | states |
|---|---|---|
| Deduplication.GetNestedValue | src/utils/deduplication.js:7-19 | returns the value at the dot path (`PathValue`): nothing for a falsy object or an empty path, nothing once a segment is not an own property, else the value at the end |
| Deduplication.AbsentMarkerDistinct | src/utils/deduplication.js:31-34 | the `∅` marker differs from the serialisation of every value, `null` included |
| Deduplication.BuildKeyDependsOnPaths | src/utils/deduplication.js:30-37 | with fields configured, the key is a function of the values at those paths only |
| Deduplication.BuildKeyReorder | src/utils/deduplication.js:30-37 | with fields configured, reordering a record's fields does not change its key |
| Deduplication.BuildKeySplits | src/utils/deduplication.js:30-37 | the key has one `field=value` part per configured field, in field order, joined by a pipe character |
| Deduplication.WholeRecordKeyFollowsFieldOrder | src/utils/deduplication.js:26-28 | without fields the key follows the enumeration order: two records whose non-integer-like keys come in different orders get different keys |
| Deduplication.Deduplicate | src/utils/deduplication.js:44-72 | a non-array gives empty lists and zero stats; otherwise `items` are the first occurrences and `duplicates` the repeats, in input order; `inputCount == outputCount + duplicateCount` |
| FirstOccurrence.Conservation | src/utils/deduplication.js:59-68 | every record goes to exactly one of kept or duplicates: the counts add up and the multisets sum to the input |
| FirstOccurrence.PickedAt | src/utils/deduplication.js:59-68 | kept records (and duplicates) are a subsequence of the input: increasing input positions, exactly the first (resp. repeated) occurrences |
| FirstOccurrence.UniqueKeysDistinct | src/utils/deduplication.js:59-68 | the kept records carry pairwise distinct keys |
| FirstOccurrence.UniqueCoversKeys | src/utils/deduplication.js:59-68 | every input key is carried by some kept record |
| FirstOccurrence.FirstOccurrenceWins | src/utils/deduplication.js:59-68 | the kept record with a given key is the first input record with that key |
| FirstOccurrence.DuplicateSeenBefore | src/utils/deduplication.js:61-63 | a duplicate's key was already carried by a record kept before it |
| FirstOccurrence.PickPrefix | src/utils/deduplication.js:59-68 | the decisions on a prefix of the input are never revised: its kept list is a prefix of the final one |
| Merging.MergeBatches | src/utils/merging.js:16-45 | equals `Merge`: empty for a non-array, a failure for a `null` batch, else the enriched items batch after batch with `batchCount` the number of batches; merged length equals `totalInputItems` |
| Merging.EnrichItems | src/utils/merging.js:35-41 | the inner loop pushes one batch's items enriched with its id and offset, in order (`EnrichAll`) |
| Merging.MergedLength | src/utils/merging.js:33-41 | the number of merged items is the sum of the batch item counts (non-array `items` count 0) |
| Merging.MergedAt | src/utils/merging.js:27-42 | item `j` of batch `b` sits at position (items before batch `b`) + `j`, enriched with batch `b`'s id and offset |
| Merging.MergedPrefix | src/utils/merging.js:27-42 | merging a prefix of the batches gives a prefix of the merged list |
| Merging.EnrichProvenance | src/utils/merging.js:28-39 | an enriched item reads the batch id and offset under `__datasetId` / `__datasetOffset`, overriding the item's own |
| Merging.EnrichKeepsFields | src/utils/merging.js:36-39 | every other field reads as in the source item |
| Merging.EnrichKeys | src/utils/merging.js:36-39 | the item's keys stay, in front, and stay distinct |
| Merging.ProvenanceDefaults | src/utils/merging.js:28-30 | the id is the batch's when truthy, else `'dataset'` (always truthy); the offset is the batch's own when it is a number, else 0 |
| Transformations.NormalizeStrings | src/utils/transformations.js:9-24 | the entry loop writes the clone to `Normalized(item)` |
| Transformations.NormalizeEntry | src/utils/transformations.js:13-20 | one pass of the entry loop: a string entry is rewritten at its own position with its normalised value, any other entry is left as it is |
| Transformations.NormalizedKeys | src/utils/transformations.js:9-24 | normalising keeps the key list, and keeps keys distinct |
| Transformations.NormalizedLookup | src/utils/transformations.js:13-21 | every key reads its normalised value; a non-string value is unchanged |
| Transformations.NormalizedString | src/utils/transformations.js:15-18 | a normalised string has no leading, trailing or repeated whitespace and only spaces; its non-whitespace characters are the original's in order (`Squeeze`); under a `/name/i` key it is lowercased with no uppercase left |
| Transformations.NormalizedWords | src/utils/transformations.js:15-18 | a normalised string is the original's words (maximal non-whitespace runs, `Text.Words`) joined by single spaces, lower-cased under a `/name/i` key |
| Text.TrimCollapseWords | src/utils/transformations.js:16 | `s.trim().replace(/\s+/g, ' ')` equals the words of `s` joined by single spaces |
| Text.WordsAreWords | src/utils/transformations.js:16 | every word of a string is non-empty and holds no whitespace |
| Transformations.NormalizedIdempotent | src/utils/transformations.js:9-24 | normalising twice is normalising once |
| Transformations.LessTransitive | src/utils/transformations.js:42-43 | the string order `<` is transitive (with `LessIrreflexive`, `LessTotal`: a strict total order) |
| Transformations.StableSortSortedPermutation | src/utils/transformations.js:31-45 | the sort result is ascending by the id key and a permutation of the input |
| Transformations.StableSortStable | src/utils/transformations.js:33-45 | records with equal id keys keep their relative order |
| Transformations.StableSortFixed | src/utils/transformations.js:33-45 | an already sorted list is returned unchanged |
| Transformations.SortByIdSpec | src/utils/transformations.js:29-48 | `[]` for a non-array; otherwise sorted by `String(id)` (missing or `null` as `''`), a permutation, stable, and idempotent |
| Transformations.GetTransformFunctions | src/utils/transformations.js:61-81 | resolves `normalizeStrings` / `sortById` exactly when the name is truthy and reads as that name |
| Transformations.IdentityFallbacks | src/utils/transformations.js:50-78 | an unknown or falsy name yields the identity item transform and `identityItems` (`[]` for a non-array) |
| Transformations.ApplyCollectionLength | src/utils/transformations.js:29-56 | the post-transform of an array keeps its length |
| Pipeline.ParseArgs | src/main.js:9-25 | the index loop computes `ParsedArgs`: `--key value` binds the value and skips it, a bare `--key` is `true`, other tokens are ignored, starting at index 2 |
| Pipeline.ParseOption | src/main.js:13-18 | `--key value` binds the value to `key` and consumes both tokens |
| Pipeline.ParseFlag | src/main.js:13-21 | `--key` followed by nothing or by another option binds `true` and consumes one token |
| Pipeline.ParsedArgsKeys | src/main.js:9-25 | the parsed keys are exactly the names of the `--` tokens after the first two; every bound value is non-empty and does not start with `--` |
| Pipeline.ParseTokensOverlay | src/main.js:11-23 | a later occurrence of an option replaces an earlier one; nothing else is disturbed |
| Pipeline.ParsedArgsExample | src/main.js:9-25 | a worked command line: of two `--dedupFields` options after the script path the last wins, `--verbose` is `true`, and `stray`, the program name and the script path are ignored |
| Pipeline.FieldListClean | src/main.js:42-47 | every name of a command-line field list is non-empty, comma-free and trimmed |
| Pipeline.FieldListJoin | src/main.js:42-47 | such names written comma-separated read back as the same list |
| Pipeline.Override | src/main.js:42-51 | a command-line value replaces the setting and nothing else (with `OverriddenLookup`); without one the configuration is unchanged |
| Pipeline.EnsureFieldArray | src/main.js:53-55 | a missing, falsy or non-array `dedupFields` becomes `[]`, other settings unchanged (with `WithFieldArrayLookup`) |
| Pipeline.Default | src/main.js:57-71 | a missing or falsy setting becomes the fallback string, other settings unchanged (with `DefaultedLookup`) |
| Pipeline.Settle | src/main.js:42-71 | the step-by-step overrides and defaults leave exactly `Settled(config, overrides)` |
| Pipeline.ApplyOverridesAndDefaults | src/main.js:42-71 | reads the command-line overrides and settles, giving `LoadedConfig` |
| Pipeline.SettledLookup | src/main.js:42-71 | `dedupFields` reads as the override, else the file's array, else `[]`; `outputMode` as the override, else the file's, default `'dataset'`; `preTransform`/`postTransform`/`logLevel` default to `'normalizeStrings'`/`'sortById'`/`'info'`; every other setting is unchanged |
| Pipeline.LoadedConfigLookup | src/main.js:42-71 | the same, from the file configuration and the parsed command line |
| Pipeline.SettledDistinct | src/main.js:42-71 | loading keeps the configuration's keys distinct |
| Pipeline.LoadedConfigShape | src/main.js:53-71 | after loading, `dedupFields` is an array and the other four settings are truthy |
| Pipeline.CommandLineFields | src/main.js:42-47 | a truthy command-line `dedupFields` replaces the file's list with its split, trimmed, non-empty names |
| Pipeline.CommandLineMode | src/main.js:49-59 | a truthy command-line `outputMode` is trimmed; one that trims to nothing falls back to `'dataset'` |
| Pipeline.NormaliseToBatches | src/main.js:89-112 | the `Input JSON must be an array.` error for a non-array; an array whose first entry is an object with array `items` becomes one `ToBatch` per entry (a `null` entry fails on its property read); any other array becomes the single batch `fallback or 'dataset-0'` at offset 0 holding the whole array |
| Pipeline.ToBatchDefaults | src/main.js:98-102 | a batch's id is its own when truthy, else `<fallback or 'dataset'>-<idx>`; the offset is its own when a number, else 0; its items are its own when an array, else `[]` |
| Pipeline.GeneratedIdsDistinct | src/main.js:99 | generated ids of different positions differ |
| Pipeline.PreTransformBatches | src/main.js:170-181 | keeps the batch count, each batch's id, offset and item count, and pre-transforms each item |
| Pipeline.PreTransformKeepsCount | src/main.js:170-181 | the pre-transform stage keeps the total item count |
| Pipeline.TotalItemsOfBatches | src/main.js:183 | the merge of the stage's batches counts every item of every batch |
| Pipeline.RunStages | src/main.js:165-211 | the payload's items are the post-transform of the first occurrences of the merged, pre-transformed items; its stats are the dedup stats, with `inputCount` the total item count; the echoed settings are the configuration's |
| ScraperUtils.DeepGet | merge-dedup-transform-datasets-scraper/src/modules/utils.js:31-49 | returns the value at the dot path (`PathValue`); nothing for a non-object or falsy object or an empty path |
| ScraperUtils.MissingMarkerDistinct | merge-dedup-transform-datasets-scraper/src/modules/utils.js:59-65 | `__MISSING__` differs from the serialisation of every value |
| ScraperUtils.DedupPartMissing | merge-dedup-transform-datasets-scraper/src/modules/utils.js:59-65 | a key part is `__MISSING__` exactly when the path resolves to nothing |
| ScraperUtils.DedupKeySplits | merge-dedup-transform-datasets-scraper/src/modules/utils.js:57-69 | exactly one part per field, in field order, joined by a pipe character |
| ScraperUtils.DedupKeyDependsOnPaths | merge-dedup-transform-datasets-scraper/src/modules/utils.js:57-69 | the key is a function of the values at the given paths only |
| ScraperUtils.DedupKeySeparates | merge-dedup-transform-datasets-scraper/src/modules/utils.js:57-69 | records that differ at one path with scalar (or absent) values get different keys, provided no key part of either record contains `|` |
| ScraperDeduplicator.Deduplicate | merge-dedup-transform-datasets-scraper/src/modules/deduplicator.js:9-37 | `TypeError` for non-array items, then for fields that are not a non-empty array; otherwise the first occurrences in input order and the number of repeats, adding up to the input length |
| ScraperDeduplicator.StrictDedupKeys | merge-dedup-transform-datasets-scraper/src/modules/deduplicator.js:21-29 | kept keys are pairwise distinct and every input key is among them |
| ScraperDeduplicator.DifferentFieldBothKept | merge-dedup-transform-datasets-scraper/src/modules/deduplicator.js:21-29 | two records differing in one configured scalar (or absent) field are both kept, provided no key part of either record contains `|` |
| ScraperMerger.FirstNonArray | merge-dedup-transform-datasets-scraper/src/modules/merger.js:16-20 | finds the first element that is not an array, or reports that all are arrays |
| ScraperMerger.MergeDatasets | merge-dedup-transform-datasets-scraper/src/modules/merger.js:8-29 | `TypeError` for a non-array; `TypeError` naming the first non-array dataset, with no partial result; otherwise the in-order concatenation |
| ScraperMerger.ConcatLength | merge-dedup-transform-datasets-scraper/src/modules/merger.js:14-24 | the merged length is the sum of the dataset lengths (the `total` counter) |
| ScraperMerger.ConcatAppend | merge-dedup-transform-datasets-scraper/src/modules/merger.js:16-25 | merging two groups of datasets is concatenating their merges |
| ScraperMerger.ConcatAt | merge-dedup-transform-datasets-scraper/src/modules/merger.js:21-24 | item `j` of dataset `i` sits after the earlier datasets' items, passed through unchanged |
| ScraperMerger.MergeEdgeCases | merge-dedup-transform-datasets-scraper/src/modules/merger.js:8-29 | no datasets merge to `[]`; a single dataset merges to itself |
| ScraperTransformer.RunTransforms | merge-dedup-transform-datasets-scraper/src/modules/transformer.js:9-14 | fails with `TypeError` exactly for a non-array |
| ScraperTransformer.RunTransformsPointwise | merge-dedup-transform-datasets-scraper/src/modules/transformer.js:16-41 | same length; item `i` is `post(pre(item, i), i)`, each stage falling back to its input on a throw |
| ScraperTransformer.NoTransformsIdentity | merge-dedup-transform-datasets-scraper/src/modules/transformer.js:16-41 | with neither transform the items come back unchanged |
| ScraperTransformer.FaultIsolation | merge-dedup-transform-datasets-scraper/src/modules/transformer.js:20-36 | an item on which both transforms throw comes back as it went in |
| KvStoreExporter.BuildKvStore | merge-dedup-transform-datasets-scraper/src/output/kvstore_exporter.js:10-28 | equals `KvExport`: the `filePath` error, then the `keyField` error, a failure for a `null` item, else the store keyed by `String(item[keyField])` |
| KvStoreExporter.KvMapKeys | merge-dedup-transform-datasets-scraper/src/output/kvstore_exporter.js:19-28 | a key is in the store exactly when some item carries it (items with a `null` or missing key are skipped) |
| KvStoreExporter.KvMapLastWins | merge-dedup-transform-datasets-scraper/src/output/kvstore_exporter.js:19-28 | under each key the store holds the last item carrying it |
| KvStoreExporter.KvMapSize | merge-dedup-transform-datasets-scraper/src/output/kvstore_exporter.js:19-28 | the store has at most as many entries as there are items |

## Left out

- **I/O.**
  - Reading and writing files: `loadInput`, `writeOutput`, `readJsonFile`, `writeJsonFile`, and the file read/parse part of `loadConfig`.
  - The file write at the end of `exportToKvStore`.
  - The entry points `main()` and the scraper's `src/main.js`.
  - Logging with its clock.
  - These are effects with no data semantics. The file configuration and the input arrive as values.
- **Exact `JSON.stringify`.** String escaping and number formatting are not modelled: numbers are integers and strings are written between quotes as they are. Serialising a JSON value never throws, so the `String(value)` fallback in `buildDedupKey` is not reachable in the model. Because quotes inside strings are not escaped, some values that `JSON.stringify` keeps apart serialise alike in the model (the one-string array holding `a","b` and the two-string array `["a","b"]` both serialise to `["a","b"]`), so both dedups in the model can drop a record the source keeps when such strings occur in a key.
- **JavaScript object-model details.**
  - Property reads resolve only on objects' own fields.
  - Index and `length` reads on arrays and strings, prototype properties (a registry name such as `toString`), and the `in` versus `hasOwnProperty` distinction are not modelled.
  - `normalizeStrings` on a string or array input (whose index fields a spread copies) gives the empty record.
- **Merging.Enrich:** `Object.assign({}, item)` copies the index fields of a string or array item. The model's `OwnFields` gives such an item no fields, so its enriched record holds only the provenance fields.
- **Unicode.**
  - Whitespace is the ASCII set of `\s` (space, tab, line feed, vertical tab, form feed, carriage return).
  - Lowercasing covers `A`-`Z` only.
  - The string order compares characters by code point, not by UTF-16 code unit.
- **In-place update and aliasing.**
  - Records are values, so the model says nothing about whether the source mutates its inputs.
  - It does not capture that `normalizeStrings` writes a clone, that `sortById` sorts a copy, or that enrichment builds a fresh object. Nothing can alias in the model.
  - `sortById` is modelled as a function, because the source calls the library sort rather than looping.
- **Json.Assign:** does not move an integer-like key (`"0"`, `"42"`) to the front. The modelled code assigns only the fixed keys `__datasetId`, `__datasetOffset` and the configuration settings, and the keys of parsed objects are taken to be already in enumeration order.
- **Pipeline.ParsedArgs:** an option named `__proto__` (`--__proto__ x`) sets the object's prototype in the source and creates no own key. The model binds it like any other name, so `Pipeline.ParsedArgsKeys` counts it among the keys.
- **ScraperUtils.DedupKeySeparates:** also requires that no key part of either record contains `|`. The model's `Serialize` does not escape quotes, so a string holding `"|"` can shift the part boundaries, and two different records can then get the same key. `JSON.stringify` escapes the quotes, so the source does not need this condition.
- **ScraperDeduplicator.DifferentFieldBothKept:** requires the same pipe-free key parts as `ScraperUtils.DedupKeySeparates`, for the same reason.
- **Pipeline.RunStages:** requires the configured `dedupFields` to be an array of strings, as documented. A falsy non-string name (`null`, `0`, `false`) never reaches `split`: `getNestedValue` returns `undefined` on `!path` (src/utils/deduplication.js:8), giving the part `<name>=∅`. A truthy non-string name throws from `path.split` when the record is truthy. Neither case is modelled.
- **Pipeline.Setting:** a setting that is absent reads as `null`.
- **The configuration file** is taken to be a JSON object, given as its fields. A file holding `null` or a primitive is not modelled.
- **Pipeline.CommandLineFields:** states only that the list replaces the file's list. That the names are clean is the separate lemma `Pipeline.FieldListClean`.
- **ScraperDeduplicator.Deduplicate:** requires the field paths in an array to be strings, as documented (`Array<string>`). A falsy non-string path never reaches `split`: `deepGet` returns `undefined` on `!fieldPath` (merge-dedup-transform-datasets-scraper/src/modules/utils.js:33), giving `__MISSING__`. A truthy non-string path throws from `split` when the record is an object. Neither case is modelled.
- **KvStoreExporter.BuildKvStore:**
  - takes the items as an array, which is what the caller passes;
  - uses a map with no key order, so the order of the written object's keys is not modelled;
  - does not model the special `__proto__` key.
- **ScraperTransformer.RunTransforms:** `runTransforms(items, null)` throws a `TypeError` while destructuring its options (merge-dedup-transform-datasets-scraper/src/modules/transformer.js:10), before the array check. The model's parameters are the two optional transforms, so a `null` options object cannot be expressed.
- **ScraperTransformer:** a user transform is a pure function of the item and its index, with `None` standing for a throw. Side effects of user transforms are not modelled.

=== FILE: deduplication.dfy ===
/**
  src/utils/deduplication.js: the composite dedup key and the lenient
  deduplicator, which turns a non-array input into an empty result.
 */
module Deduplication {
  import opened Wrappers
  import opened Text
  import opened Json
  import opened FirstOccurrence

  /** Stands for an absent value in a key part. */
  const AbsentMarker: string := "∅"

  datatype Stats = Stats(inputCount: nat, outputCount: nat, duplicateCount: nat)

  datatype DedupResult = DedupResult(items: seq<Json>, duplicates: seq<Json>, stats: Stats)

  /** `Object.prototype.hasOwnProperty.call(v, key)` on a truthy value. */
  predicate HasOwn(v: Json, key: string) {
    v.JObj? && key in Keys(v.fields)
  }

  /**
    `getNestedValue(obj, path)`: walks the dot segments of `path`, stepping
    into an own property while the current value is truthy and has it.
   */
  method GetNestedValue(obj: Json, path: string) returns (r: Option<Json>)
    ensures r == PathValue(obj, path)
    ensures !Truthy(obj) || path == "" ==> r == None
  {
    if !Truthy(obj) || path == "" {
      return None;
    }
    var parts := Split(path, '.');
    var current := obj;
    var i := 0;
    while i < |parts|
      invariant 0 <= i <= |parts|
      invariant Walk(obj, parts) == Walk(current, parts[i..])
    {
      var part := parts[i];
      assert parts[i..][0] == part && parts[i..][1..] == parts[i + 1..];
      if Truthy(current) && HasOwn(current, part) {
        current := Lookup(current.fields, part).value;
      } else {
        return None;
      }
      i := i + 1;
    }
    return Some(current);
  }

  /** One part of a composite key: `field=<JSON of the value>`, or the absent marker. */
  function KeyPart(item: Json, field: string): string {
    var serialised := match PathValue(item, field)
      case None => AbsentMarker
      case Some(v) => Serialize(v);
    field + "=" + serialised
  }

  function KeyParts(item: Json, fields: seq<string>): (parts: seq<string>)
    ensures |parts| == |fields|
    ensures forall i :: 0 <= i < |fields| ==> parts[i] == KeyPart(item, fields[i])
  {
    seq(|fields|, i requires 0 <= i < |fields| => KeyPart(item, fields[i]))
  }

  /**
    `buildKey(item, dedupFields)`: with no fields, the serialisation of the
    whole record; otherwise the key parts in field order joined by `|`.
   */
  function BuildKey(item: Json, fields: seq<string>): string {
    if |fields| == 0 then Serialize(item) else Join(KeyParts(item, fields), "|")
  }

  /** The key of a record as the deduplicator uses it. */
  function KeyFor(fields: seq<string>): KeyFn {
    item => BuildKey(item, fields)
  }

  /** The absent marker is not the serialisation of any value, `null` included. */
  lemma AbsentMarkerDistinct(v: Json)
    ensures Serialize(v) != AbsentMarker
  {
    assert Serialize(v)[0] != AbsentMarker[0];
  }

  /** With fields configured, the key depends only on the values found at those paths. */
  lemma BuildKeyDependsOnPaths(a: Json, b: Json, fields: seq<string>)
    requires forall f :: f in fields ==> PathValue(a, f) == PathValue(b, f)
    requires |fields| > 0
    ensures BuildKey(a, fields) == BuildKey(b, fields)
  {
    assert KeyParts(a, fields) == KeyParts(b, fields);
  }

  /** With fields configured, reordering a record's fields leaves its key unchanged. */
  lemma BuildKeyReorder(f1: seq<Field>, f2: seq<Field>, fields: seq<string>)
    requires DistinctKeys(f1) && DistinctKeys(f2) && multiset(f1) == multiset(f2)
    requires |fields| > 0
    ensures BuildKey(JObj(f1), fields) == BuildKey(JObj(f2), fields)
  {
    forall f | f in fields
      ensures PathValue(JObj(f1), f) == PathValue(JObj(f2), f)
    {
      PathValueReorder(f1, f2, f);
    }
    BuildKeyDependsOnPaths(JObj(f1), JObj(f2), fields);
  }

  /**
    With fields configured, the key has exactly one part per field, in field
    order: splitting it at `|` gives the parts back whenever no part holds a `|`.
   */
  lemma BuildKeySplits(item: Json, fields: seq<string>)
    requires |fields| > 0
    requires forall i :: 0 <= i < |fields| ==> '|' !in KeyPart(item, fields[i])
    ensures Split(BuildKey(item, fields), '|') == KeyParts(item, fields)
  {
    var parts := KeyParts(item, fields);
    assert forall p :: p in parts ==> '|' !in p;
    SplitJoin(parts, '|');
  }

  /**
    Without fields the key is the serialisation in insertion order, so two
    records that differ only in field order get different keys.
   */
  lemma WholeRecordKeyFollowsFieldOrder()
    ensures BuildKey(JObj([("id", JNum(1)), ("name", JStr("x"))]), [])
         != BuildKey(JObj([("name", JStr("x")), ("id", JNum(1))]), [])
  {
    var k1 := BuildKey(JObj([("id", JNum(1)), ("name", JStr("x"))]), []);
    var k2 := BuildKey(JObj([("name", JStr("x")), ("id", JNum(1))]), []);
    assert k1[..3] == "{\"i";
    assert k2[..3] == "{\"n";
  }

  /**
    `deduplicate(items, dedupFields)`: a non-array input gives an empty result
    with zero counts; otherwise each record goes to `items` when its key is new
    and to `duplicates` when it was seen before.
   */
  method Deduplicate(items: Json, fields: seq<string>) returns (r: DedupResult)
    ensures !items.JArr? ==> r == DedupResult([], [], Stats(0, 0, 0))
    ensures items.JArr? ==>
      && r.items == Unique(items.elems, KeyFor(fields))
      && r.duplicates == Duplicates(items.elems, KeyFor(fields))
      && r.stats == Stats(|items.elems|, |r.items|, |r.duplicates|)
    ensures r.stats.inputCount == r.stats.outputCount + r.stats.duplicateCount
  {
    var inputCount := if items.JArr? then |items.elems| else 0;
    if !items.JArr? {
      return DedupResult([], [], Stats(inputCount, 0, 0));
    }
    var s := items.elems;
    var key := KeyFor(fields);
    var seen: set<string> := {};
    var unique: seq<Json> := [];
    var duplicates: seq<Json> := [];
    var duplicateCount := 0;
    for i := 0 to |s|
      invariant unique == Unique(s[..i], key)
      invariant duplicates == Duplicates(s[..i], key)
      invariant forall k :: k in seen <==> k in KeysOf(s[..i], key)
      invariant duplicateCount == |duplicates|
    {
      var item := s[i];
      var k := key(item);
      ScanStep(s, key, i);
      if k in seen {
        duplicates := duplicates + [item];
        duplicateCount := duplicateCount + 1;
      } else {
        seen := seen + {k};
        unique := unique + [item];
      }
    }
    assert s[..|s|] == s;
    Conservation(s, key);
    r := DedupResult(unique, duplicates, Stats(inputCount, |unique|, duplicateCount));
  }
}

=== FILE: first_occurrence.dfy ===
/**
  What both deduplicators compute, stated once over an arbitrary key function:
  scanning the records in input order, a record whose key no earlier record
  carried is a first occurrence and is kept; any other record is a duplicate.
 */
module FirstOccurrence {
  import opened Json

  type KeyFn = Json -> string

  function KeysOf(s: seq<Json>, key: KeyFn): (ks: seq<string>)
    ensures |ks| == |s|
    ensures forall i :: 0 <= i < |s| ==> ks[i] == key(s[i])
  {
    seq(|s|, i requires 0 <= i < |s| => key(s[i]))
  }

  /** Record `i` carries a key that no record before it carries. */
  predicate IsFirst(s: seq<Json>, key: KeyFn, i: nat)
    requires i < |s|
  {
    key(s[i]) !in KeysOf(s[..i], key)
  }

  /**
    The records whose first-occurrence status is `first`, in input order:
    `Pick(s, key, true)` are the first occurrences, `Pick(s, key, false)` the repeats.
   */
  function Pick(s: seq<Json>, key: KeyFn, first: bool): seq<Json>
    decreases |s|
  {
    if s == [] then []
    else
      var p := s[..|s| - 1];
      Pick(p, key, first) + (if (key(s[|s| - 1]) !in KeysOf(p, key)) == first then [s[|s| - 1]] else [])
  }

  function Unique(s: seq<Json>, key: KeyFn): seq<Json> {
    Pick(s, key, true)
  }

  function Duplicates(s: seq<Json>, key: KeyFn): seq<Json> {
    Pick(s, key, false)
  }

  /** The input positions `Pick` takes its records from. */
  function PickedIndices(s: seq<Json>, key: KeyFn, first: bool): seq<nat>
    decreases |s|
  {
    if s == [] then []
    else
      var p := s[..|s| - 1];
      PickedIndices(p, key, first) + (if IsFirst(s, key, |s| - 1) == first then [|s| - 1] else [])
  }

  /** Appending one record extends what `Pick` keeps by that record or by nothing. */
  lemma PickSnoc(s: seq<Json>, x: Json, key: KeyFn, first: bool)
    ensures KeysOf(s + [x], key) == KeysOf(s, key) + [key(x)]
    ensures Pick(s + [x], key, first) == Pick(s, key, first) + (if (key(x) !in KeysOf(s, key)) == first then [x] else [])
  {
    assert (s + [x])[..|s|] == s;
  }

  /** One more record of the scan: it joins the kept records when its key is new, the duplicates otherwise. */
  lemma ScanStep(s: seq<Json>, key: KeyFn, i: nat)
    requires i < |s|
    ensures KeysOf(s[..i + 1], key) == KeysOf(s[..i], key) + [key(s[i])]
    ensures Unique(s[..i + 1], key) == Unique(s[..i], key) + (if key(s[i]) in KeysOf(s[..i], key) then [] else [s[i]])
    ensures Duplicates(s[..i + 1], key) == Duplicates(s[..i], key) + (if key(s[i]) in KeysOf(s[..i], key) then [s[i]] else [])
  {
    assert s[..i + 1] == s[..i] + [s[i]];
    PickSnoc(s[..i], s[i], key, true);
    PickSnoc(s[..i], s[i], key, false);
  }

  lemma IsFirstPrefix(s: seq<Json>, key: KeyFn, n: nat, i: nat)
    requires i < n <= |s|
    ensures IsFirst(s[..n], key, i) == IsFirst(s, key, i)
  {
    assert s[..n][..i] == s[..i];
  }

  /**
    `Pick` takes exactly the records at the positions in `PickedIndices`, in
    input order, and those are the positions whose first-occurrence status is
    `first`.
   */
  predicate PicksAt(s: seq<Json>, key: KeyFn, first: bool) {
    var pi, pk := PickedIndices(s, key, first), Pick(s, key, first);
    && |pi| == |pk|
    && (forall j :: 0 <= j < |pk| ==> pi[j] < |s| && pk[j] == s[pi[j]])
    && (forall j1, j2 :: 0 <= j1 < j2 < |pk| ==> pi[j1] < pi[j2])
    && (forall i :: 0 <= i < |s| ==> (i in pi <==> IsFirst(s, key, i) == first))
  }

  /** `PicksAt`, spelled out. */
  lemma PickedAt(s: seq<Json>, key: KeyFn, first: bool)
    ensures |PickedIndices(s, key, first)| == |Pick(s, key, first)|
    ensures forall j :: 0 <= j < |Pick(s, key, first)| ==>
      PickedIndices(s, key, first)[j] < |s| && Pick(s, key, first)[j] == s[PickedIndices(s, key, first)[j]]
    ensures forall j1, j2 :: 0 <= j1 < j2 < |Pick(s, key, first)| ==>
      PickedIndices(s, key, first)[j1] < PickedIndices(s, key, first)[j2]
    ensures forall i :: 0 <= i < |s| ==> (i in PickedIndices(s, key, first) <==> IsFirst(s, key, i) == first)
  {
    PicksAtAll(s, key, first);
  }

  lemma {:induction false} PicksAtAll(s: seq<Json>, key: KeyFn, first: bool)
    ensures PicksAt(s, key, first)
    decreases |s|
  {
    if s != [] {
      var p, x := s[..|s| - 1], s[|s| - 1];
      PicksAtAll(p, key, first);
      assert s == p + [x];
      PicksAtStep(p, x, key, first);
    }
  }

  lemma PicksAtStep(p: seq<Json>, x: Json, key: KeyFn, first: bool)
    requires PicksAt(p, key, first)
    ensures PicksAt(p + [x], key, first)
  {
    var s, n := p + [x], |p|;
    assert s[..n] == p;
    forall i | 0 <= i < n
      ensures IsFirst(p, key, i) == IsFirst(s, key, i)
    {
      IsFirstPrefix(s, key, n, i);
    }
    var pi, pk := PickedIndices(p, key, first), Pick(p, key, first);
    if IsFirst(s, key, n) == first {
      assert PickedIndices(s, key, first) == pi + [n];
      assert Pick(s, key, first) == pk + [x];
    } else {
      assert PickedIndices(s, key, first) == pi;
      assert Pick(s, key, first) == pk;
    }
  }

  /** Every record goes to exactly one side, so the counts add up and nothing is lost or invented. */
  lemma {:induction false} Conservation(s: seq<Json>, key: KeyFn)
    ensures |Unique(s, key)| + |Duplicates(s, key)| == |s|
    ensures multiset(Unique(s, key)) + multiset(Duplicates(s, key)) == multiset(s)
    decreases |s|
  {
    if s != [] {
      var p, x := s[..|s| - 1], s[|s| - 1];
      Conservation(p, key);
      assert s == p + [x];
      ConservationStep(p, x, key);
    }
  }

  lemma ConservationStep(p: seq<Json>, x: Json, key: KeyFn)
    requires |Unique(p, key)| + |Duplicates(p, key)| == |p|
    requires multiset(Unique(p, key)) + multiset(Duplicates(p, key)) == multiset(p)
    ensures |Unique(p + [x], key)| + |Duplicates(p + [x], key)| == |p + [x]|
    ensures multiset(Unique(p + [x], key)) + multiset(Duplicates(p + [x], key)) == multiset(p + [x])
  {
    PickSnoc(p, x, key, true);
    PickSnoc(p, x, key, false);
    var u, d := Unique(p, key), Duplicates(p, key);
    if key(x) in KeysOf(p, key) {
      assert Unique(p + [x], key) == u;
      assert Duplicates(p + [x], key) == d + [x];
      assert multiset(d + [x]) == multiset(d) + multiset{x};
    } else {
      assert Unique(p + [x], key) == u + [x];
      assert Duplicates(p + [x], key) == d;
      assert multiset(u + [x]) == multiset(u) + multiset{x};
    }
    assert multiset(p + [x]) == multiset(p) + multiset{x};
  }

  /** The kept records carry pairwise distinct keys. */
  lemma {:induction false} UniqueKeysDistinct(s: seq<Json>, key: KeyFn)
    ensures forall j1, j2 :: 0 <= j1 < j2 < |Unique(s, key)| ==>
      key(Unique(s, key)[j1]) != key(Unique(s, key)[j2])
    decreases |s|
  {
    if s != [] {
      var p := s[..|s| - 1];
      UniqueKeysDistinct(p, key);
      PickedAt(p, key, true);
      var u := Unique(p, key);
      forall j | 0 <= j < |u|
        ensures key(u[j]) in KeysOf(p, key)
      {
        var i := PickedIndices(p, key, true)[j];
        assert KeysOf(p, key)[i] == key(u[j]);
      }
    }
  }

  /** Every key of the input is carried by some kept record. */
  lemma {:induction false} UniqueCoversKeys(s: seq<Json>, key: KeyFn)
    ensures forall i :: 0 <= i < |s| ==> key(s[i]) in KeysOf(Unique(s, key), key)
    decreases |s|
  {
    if s != [] {
      var n := |s| - 1;
      var p := s[..n];
      UniqueCoversKeys(p, key);
      var u := Unique(s, key);
      var up := Unique(p, key);
      assert up <= u;
      forall i | 0 <= i < |s|
        ensures key(s[i]) in KeysOf(u, key)
      {
        if i < n {
          assert s[i] == p[i];
          var j :| 0 <= j < |up| && KeysOf(up, key)[j] == key(p[i]);
          assert KeysOf(u, key)[j] == key(up[j]);
        } else if key(s[n]) in KeysOf(p, key) {
          var i' :| 0 <= i' < n && KeysOf(p, key)[i'] == key(s[n]);
          var j :| 0 <= j < |up| && KeysOf(up, key)[j] == key(p[i']);
          assert KeysOf(u, key)[j] == key(up[j]);
        } else {
          assert u[|u| - 1] == s[n];
          assert KeysOf(u, key)[|u| - 1] == key(s[n]);
        }
      }
    }
  }

  /** A prefix of the input keeps a prefix of what the whole input keeps. */
  lemma {:induction false} PickPrefix(s: seq<Json>, key: KeyFn, first: bool, n: nat)
    requires n <= |s|
    ensures Pick(s[..n], key, first) <= Pick(s, key, first)
    decreases |s|
  {
    if n < |s| {
      var p := s[..|s| - 1];
      PickPrefix(p, key, first, n);
      assert p[..n] == s[..n];
    } else {
      assert s[..n] == s;
    }
  }

  /**
    First occurrence wins: for the first record carrying a key, the kept
    record with that key is that very record.
   */
  lemma FirstOccurrenceWins(s: seq<Json>, key: KeyFn, i: nat, u: Json)
    requires i < |s| && IsFirst(s, key, i)
    requires u in Unique(s, key) && key(u) == key(s[i])
    ensures u == s[i]
  {
    PickedAt(s, key, true);
    UniqueKeysDistinct(s, key);
    var us := Unique(s, key);
    var pi := PickedIndices(s, key, true);
    var j0 :| 0 <= j0 < |pi| && pi[j0] == i;
    var j1 :| 0 <= j1 < |us| && us[j1] == u;
  }

  /**
    A record that is not a first occurrence carries a key already carried by a
    record kept before it; those earlier kept records lead the final kept list.
   */
  lemma DuplicateSeenBefore(s: seq<Json>, key: KeyFn, i: nat)
    requires i < |s| && !IsFirst(s, key, i)
    ensures key(s[i]) in KeysOf(Unique(s[..i], key), key)
    ensures Unique(s[..i], key) <= Unique(s, key)
  {
    var p := s[..i];
    var i' :| 0 <= i' < i && KeysOf(p, key)[i'] == key(s[i]);
    UniqueCoversKeys(p, key);
    assert key(p[i']) in KeysOf(Unique(p, key), key);
    PickPrefix(s, key, true, i);
  }
}

=== FILE: json.dfy ===
/**
  The values the pipeline moves around: JSON values as JavaScript holds them
  after `JSON.parse`. An object is an association list in insertion order;
  numbers are integers. The functions here are the pieces of the JavaScript
  object model the core uses: truthiness, own-property reads, property
  assignment, `JSON.stringify`, `String(v)` and dot-path resolution.
 */
module Json {
  import opened Wrappers
  import opened Text

  datatype Json =
    | JNull
    | JBool(b: bool)
    | JNum(n: int)
    | JStr(s: string)
    | JArr(elems: seq<Json>)
    | JObj(fields: seq<Field>)

  type Field = (string, Json)

  /** JavaScript truthiness: `null`, `false`, `0` and `""` are falsy. */
  predicate Truthy(v: Json) {
    match v
    case JNull => false
    case JBool(b) => b
    case JNum(n) => n != 0
    case JStr(s) => s != ""
    case _ => true
  }

  // ---------------------------------------------------------------------------
  // objects as association lists

  function Keys(fields: seq<Field>): (ks: seq<string>)
    ensures |ks| == |fields|
    ensures forall i :: 0 <= i < |fields| ==> ks[i] == fields[i].0
  {
    if fields == [] then [] else [fields[0].0] + Keys(fields[1..])
  }

  /** A JavaScript object never holds the same key twice. */
  predicate DistinctKeys(fields: seq<Field>) {
    forall i, j :: 0 <= i < j < |fields| ==> fields[i].0 != fields[j].0
  }

  /** `obj[key]` for an own property; `None` stands for `undefined`. */
  function Lookup(fields: seq<Field>, key: string): (r: Option<Json>)
    ensures r.None? <==> key !in Keys(fields)
    ensures r.Some? ==> (key, r.value) in fields
  {
    if fields == [] then None
    else if fields[0].0 == key then Some(fields[0].1)
    else Lookup(fields[1..], key)
  }

  /** `v[key]` on a value that is not `null`: only objects have own properties here. */
  function Member(v: Json, key: string): Option<Json> {
    if v.JObj? then Lookup(v.fields, key) else None
  }

  /**
    The fields that `{ ...v }` and `Object.assign({}, v)` copy: an object's own
    fields, nothing for `null`, numbers and booleans (the index fields of strings
    and arrays are not modelled).
   */
  function OwnFields(v: Json): seq<Field> {
    if v.JObj? then v.fields else []
  }

  /**
    `obj[key] = value`: an existing key keeps its place, a new (non-integer-like)
    key goes last in the own-key enumeration order.
   */
  function Assign(fields: seq<Field>, key: string, value: Json): (r: seq<Field>)
    ensures key in Keys(fields) ==> |r| == |fields|
    ensures key !in Keys(fields) ==> r == fields + [(key, value)]
  {
    if fields == [] then [(key, value)]
    else if fields[0].0 == key then [(key, value)] + fields[1..]
    else [fields[0]] + Assign(fields[1..], key, value)
  }

  /** A lookup reads the first field when it has the key, the rest otherwise. */
  lemma LookupCons(f: Field, rest: seq<Field>, key: string)
    ensures Lookup([f] + rest, key) == if f.0 == key then Some(f.1) else Lookup(rest, key)
  {
    assert ([f] + rest)[1..] == rest;
  }

  /** Each key of a three-field object with distinct keys reads its own value. */
  lemma LookupThree(k1: string, k2: string, k3: string, v1: Json, v2: Json, v3: Json)
    requires k1 != k2 && k1 != k3 && k2 != k3
    ensures Lookup([(k1, v1), (k2, v2), (k3, v3)], k1) == Some(v1)
    ensures Lookup([(k1, v1), (k2, v2), (k3, v3)], k2) == Some(v2)
    ensures Lookup([(k1, v1), (k2, v2), (k3, v3)], k3) == Some(v3)
  {
    var last := [(k3, v3)];
    var rest := [(k2, v2)] + last;
    assert [(k1, v1), (k2, v2), (k3, v3)] == [(k1, v1)] + rest;
    LookupCons((k1, v1), rest, k1);
    LookupCons((k1, v1), rest, k2);
    LookupCons((k1, v1), rest, k3);
    LookupCons((k2, v2), last, k2);
    LookupCons((k2, v2), last, k3);
    assert last == [(k3, v3)] + [];
    LookupCons((k3, v3), [], k3);
  }

  /** After an assignment the key reads back the assigned value and every other key reads as before. */
  lemma {:induction false} AssignLookup(fields: seq<Field>, key: string, value: Json, other: string)
    ensures Lookup(Assign(fields, key, value), key) == Some(value)
    ensures other != key ==> Lookup(Assign(fields, key, value), other) == Lookup(fields, other)
  {
    if fields == [] {
      LookupCons((key, value), [], key);
      LookupCons((key, value), [], other);
    } else {
      var f, t := fields[0], fields[1..];
      assert fields == [f] + t;
      LookupCons(f, t, other);
      if f.0 == key {
        LookupCons((key, value), t, key);
        LookupCons((key, value), t, other);
      } else {
        AssignLookup(t, key, value, other);
        LookupCons(f, Assign(t, key, value), key);
        LookupCons(f, Assign(t, key, value), other);
      }
    }
  }

  lemma AssignLookupAll(fields: seq<Field>, key: string, value: Json)
    ensures Lookup(Assign(fields, key, value), key) == Some(value)
    ensures forall other :: other != key ==> Lookup(Assign(fields, key, value), other) == Lookup(fields, other)
  {
    forall other | other != key
      ensures Lookup(Assign(fields, key, value), other) == Lookup(fields, other)
    {
      AssignLookup(fields, key, value, other);
    }
    AssignLookup(fields, key, value, key);
  }

  /** An assignment keeps the key order; it adds the key at the end when it is new. */
  lemma {:induction false} AssignKeys(fields: seq<Field>, key: string, value: Json)
    ensures Keys(Assign(fields, key, value)) == if key in Keys(fields) then Keys(fields) else Keys(fields) + [key]
  {
    if fields != [] && fields[0].0 != key {
      AssignKeys(fields[1..], key, value);
      assert Keys(fields) == [fields[0].0] + Keys(fields[1..]);
      assert Keys(Assign(fields, key, value)) == [fields[0].0] + Keys(Assign(fields[1..], key, value));
    } else if fields != [] {
      assert Keys(Assign(fields, key, value)) == [key] + Keys(fields[1..]);
      assert Keys(fields) == [key] + Keys(fields[1..]);
    }
  }

  /** An assignment keeps the keys of an object distinct. */
  lemma AssignDistinct(fields: seq<Field>, key: string, value: Json)
    requires DistinctKeys(fields)
    ensures DistinctKeys(Assign(fields, key, value))
  {
    var r := Assign(fields, key, value);
    AssignKeys(fields, key, value);
    forall i, j | 0 <= i < j < |r|
      ensures r[i].0 != r[j].0
    {
      assert Keys(r)[i] == r[i].0 && Keys(r)[j] == r[j].0;
      if j < |fields| {
        assert Keys(fields)[i] == fields[i].0 && Keys(fields)[j] == fields[j].0;
      }
    }
  }

  /** With distinct keys a lookup finds a value exactly when the pair is present. */
  lemma {:induction false} LookupPair(fields: seq<Field>, key: string, value: Json)
    requires DistinctKeys(fields)
    ensures Lookup(fields, key) == Some(value) <==> (key, value) in fields
  {
    if fields != [] {
      assert DistinctKeys(fields[1..]);
      LookupPair(fields[1..], key, value);
    }
  }

  /** Reordering the fields of an object does not change what any key reads. */
  lemma LookupReorder(f1: seq<Field>, f2: seq<Field>, key: string)
    requires DistinctKeys(f1) && DistinctKeys(f2) && multiset(f1) == multiset(f2)
    ensures Lookup(f1, key) == Lookup(f2, key)
  {
    match Lookup(f1, key)
    case Some(v) =>
      LookupPair(f1, key, v);
      assert (key, v) in multiset(f2);
      LookupPair(f2, key, v);
    case None =>
      if Lookup(f2, key).Some? {
        var v := Lookup(f2, key).value;
        LookupPair(f2, key, v);
        assert (key, v) in multiset(f1);
        LookupPair(f1, key, v);
      }
  }

  lemma SliceSnoc(s: seq<Json>, i: nat)
    requires i < |s|
    ensures s[..i + 1] == s[..i] + [s[i]]
  {
  }

  /** An array of strings, as a list of field paths is given. */
  predicate StringFields(v: Json) {
    v.JArr? && forall i :: 0 <= i < |v.elems| ==> v.elems[i].JStr?
  }

  /** The strings of an array of strings. */
  function FieldNames(es: seq<Json>): (r: seq<string>)
    requires forall i :: 0 <= i < |es| ==> es[i].JStr?
    ensures |r| == |es| && forall i :: 0 <= i < |es| ==> JStr(r[i]) == es[i]
  {
    seq(|es|, i requires 0 <= i < |es| => es[i].s)
  }

  // ---------------------------------------------------------------------------
  // dot paths

  /** Follows `segments` through nested objects; `None` as soon as a step has no own property. */
  function Walk(v: Json, segments: seq<string>): (r: Option<Json>)
    ensures segments == [] ==> r == Some(v)
  {
    if segments == [] then Some(v)
    else match Member(v, segments[0])
      case None => None
      case Some(w) => Walk(w, segments[1..])
  }

  /** The value at dot path `path` in `obj`; the empty path resolves to nothing. */
  function PathValue(obj: Json, path: string): Option<Json> {
    if path == "" then None else Walk(obj, Split(path, '.'))
  }

  /** Resolving a path in two parts is resolving the first part, then the second from there. */
  lemma {:induction false} WalkAppend(v: Json, a: seq<string>, b: seq<string>)
    ensures Walk(v, a + b) == match Walk(v, a) case None => None case Some(w) => Walk(w, b)
  {
    if a == [] {
      assert a + b == b;
    } else {
      assert (a + b)[0] == a[0] && (a + b)[1..] == a[1..] + b;
      match Member(v, a[0])
      case None =>
      case Some(w) => WalkAppend(w, a[1..], b);
    }
  }

  /** Two objects that differ only in field order resolve every path alike. */
  lemma PathValueReorder(f1: seq<Field>, f2: seq<Field>, path: string)
    requires DistinctKeys(f1) && DistinctKeys(f2) && multiset(f1) == multiset(f2)
    ensures PathValue(JObj(f1), path) == PathValue(JObj(f2), path)
  {
    if path != "" {
      var segs := Split(path, '.');
      LookupReorder(f1, f2, segs[0]);
    }
  }

  // ---------------------------------------------------------------------------
  // text forms

  function Quote(s: string): string {
    "\"" + s + "\""
  }

  /** `JSON.stringify(v)`, fields in insertion order (escaping is not modelled). */
  function Serialize(v: Json): (r: string)
    ensures r != [] && r[0] in "ntf-0123456789\"[{"
  {
    match v
    case JNull => "null"
    case JBool(b) => if b then "true" else "false"
    case JNum(n) => IntToString(n)
    case JStr(s) => Quote(s)
    case JArr(es) =>
      "[" + Join(seq(|es|, i requires 0 <= i < |es| => Serialize(es[i])), ",") + "]"
    case JObj(fs) =>
      "{" + Join(seq(|fs|, i requires 0 <= i < |fs| => Quote(fs[i].0) + ":" + Serialize(fs[i].1)), ",") + "}"
  }

  /** `String(v)`: arrays join their elements with commas, `null` elements as empty strings. */
  function ToJsString(v: Json): string {
    match v
    case JNull => "null"
    case JBool(b) => if b then "true" else "false"
    case JNum(n) => IntToString(n)
    case JStr(s) => s
    case JArr(es) =>
      Join(seq(|es|, i requires 0 <= i < |es| => if es[i].JNull? then "" else ToJsString(es[i])), ",")
    case JObj(_) => "[object Object]"
  }

  /** A value without structure: `null`, a boolean, a number or a string. */
  predicate Scalar(v: Json) {
    !v.JArr? && !v.JObj?
  }

  /** Distinct scalars serialise differently: the first character tells the kind apart. */
  lemma SerializeScalarInjective(a: Json, b: Json)
    requires Scalar(a) && Scalar(b)
    requires Serialize(a) == Serialize(b)
    ensures a == b
  {
    if a.JNum? && b.JNum? {
      IntToStringInjective(a.n, b.n);
    } else if a.JStr? && b.JStr? {
      var r := Serialize(a);
      assert a.s == r[1..|r| - 1] == b.s;
    }
  }
}

=== FILE: kvstore_exporter.dfy ===
/**
  merge-dedup-transform-datasets-scraper/src/output/kvstore_exporter.js: the
  option checks of `exportToKvStore` and the loop that projects the items
  into a key-value object. Writing the object to a file is not modelled.
 */
module KvStoreExporter {
  import opened Wrappers
  import opened Json

  const FilePathError: Failure := PlainError("exportToKvStore requires filePath in options.")
  const KeyFieldError: Failure := PlainError("exportToKvStore requires keyField in options.")

  /** `options[name]` after `options || {}`: nothing unless `options` is an object that has it. */
  function OptionValue(options: Json, name: string): Option<Json> {
    Member(options, name)
  }

  /** A present, truthy option. */
  predicate Given(v: Option<Json>) {
    v.Some? && Truthy(v.value)
  }

  /**
    The store key of an item: `String(item[prop])`, or nothing when the value
    is `null` or `undefined` (the item is skipped). `item` is not `null`.
   */
  function ItemKey(item: Json, prop: string): Option<string> {
    match Member(item, prop)
    case None => None
    case Some(v) => if v.JNull? then None else Some(ToJsString(v))
  }

  /** The store the loop builds from `items`: each item with a key under that key, later items overwriting. */
  function KvMap(items: seq<Json>, prop: string): map<string, Json>
    decreases |items|
  {
    if items == [] then map[]
    else
      var m := KvMap(items[..|items| - 1], prop);
      var last := items[|items| - 1];
      match ItemKey(last, prop)
      case None => m
      case Some(k) => m[k := last]
  }

  /**
    What the projection part of `exportToKvStore(items, options)` produces or
    throws: the two option errors in order, the runtime's `TypeError` for a
    `null` item, otherwise the key-value store keyed by `String(keyField)`.
   */
  function KvExport(items: seq<Json>, options: Json): Result<map<string, Json>> {
    var filePath := OptionValue(options, "filePath");
    var keyField := OptionValue(options, "keyField");
    if !Given(filePath) then Fail(FilePathError)
    else if !Given(keyField) then Fail(KeyFieldError)
    else if JNull in items then Fail(NullPropertyRead)
    else Success(KvMap(items, ToJsString(keyField.value)))
  }

  /** Lines 11-28 of `exportToKvStore`: the option checks and the projection loop. */
  method BuildKvStore(items: seq<Json>, options: Json) returns (r: Result<map<string, Json>>)
    ensures r == KvExport(items, options)
  {
    var filePath := OptionValue(options, "filePath");
    var keyField := OptionValue(options, "keyField");
    if !Given(filePath) {
      return Fail(FilePathError);
    }
    if !Given(keyField) {
      return Fail(KeyFieldError);
    }
    var prop := ToJsString(keyField.value);
    var kv: map<string, Json> := map[];
    for i := 0 to |items|
      invariant kv == KvMap(items[..i], prop)
      invariant JNull !in items[..i]
    {
      var item := items[i];
      KvMapStep(items, i, prop);
      if item.JNull? {
        assert JNull in items;
        return Fail(NullPropertyRead);
      }
      var key := Member(item, prop);
      if key.None? || key.value.JNull? {
        continue;
      }
      kv := kv[ToJsString(key.value) := item];
    }
    assert items[..|items|] == items;
    return Success(kv);
  }

  /** One more item of the loop: the store gains its key, if it has one. */
  lemma KvMapStep(items: seq<Json>, i: nat, prop: string)
    requires i < |items|
    ensures items[..i + 1] == items[..i] + [items[i]]
    ensures KvMap(items[..i + 1], prop) == match ItemKey(items[i], prop) case None => KvMap(items[..i], prop) case Some(k) => KvMap(items[..i], prop)[k := items[i]]
  {
    assert items[..i + 1] == items[..i] + [items[i]];
    KvMapSnoc(items[..i], items[i], prop);
  }

  lemma KvMapSnoc(items: seq<Json>, x: Json, prop: string)
    ensures KvMap(items + [x], prop) == match ItemKey(x, prop) case None => KvMap(items, prop) case Some(k) => KvMap(items, prop)[k := x]
  {
    assert (items + [x])[..|items|] == items;
  }

  /** A key is in the store exactly when some item carries it. */
  lemma {:induction false} KvMapKeys(items: seq<Json>, prop: string, k: string)
    ensures k in KvMap(items, prop) <==> exists i :: 0 <= i < |items| && ItemKey(items[i], prop) == Some(k)
    decreases |items|
  {
    if items != [] {
      var init, last := items[..|items| - 1], items[|items| - 1];
      assert items == init + [last];
      KvMapKeys(init, prop, k);
      KvMapSnoc(init, last, prop);
      CarriersSnoc(init, last, prop, k);
    }
  }

  /** Some item of `items + [x]` carries `k` exactly when one of `items` does or `x` does. */
  lemma CarriersSnoc(items: seq<Json>, x: Json, prop: string, k: string)
    ensures (exists i :: 0 <= i < |items + [x]| && ItemKey((items + [x])[i], prop) == Some(k))
      <==> (exists i :: 0 <= i < |items| && ItemKey(items[i], prop) == Some(k)) || ItemKey(x, prop) == Some(k)
  {
    var s := items + [x];
    if exists i :: 0 <= i < |s| && ItemKey(s[i], prop) == Some(k) {
      var i :| 0 <= i < |s| && ItemKey(s[i], prop) == Some(k);
      if i < |items| {
        assert s[i] == items[i];
      }
    }
    if exists i :: 0 <= i < |items| && ItemKey(items[i], prop) == Some(k) {
      var i :| 0 <= i < |items| && ItemKey(items[i], prop) == Some(k);
      assert s[i] == items[i];
    }
    if ItemKey(x, prop) == Some(k) {
      assert s[|items|] == x;
    }
  }

  /** Last wins: the store holds, under each key, the last item that carries it. */
  lemma {:induction false} KvMapLastWins(items: seq<Json>, prop: string, i: nat, k: string)
    requires i < |items| && ItemKey(items[i], prop) == Some(k)
    requires forall j :: i < j < |items| ==> ItemKey(items[j], prop) != Some(k)
    ensures k in KvMap(items, prop) && KvMap(items, prop)[k] == items[i]
    decreases |items|
  {
    if i < |items| - 1 {
      var init := items[..|items| - 1];
      assert init[i] == items[i];
      KvMapLastWins(init, prop, i, k);
    }
  }

  /** The store never has more entries than there are items. */
  lemma {:induction false} KvMapSize(items: seq<Json>, prop: string)
    ensures |KvMap(items, prop)| <= |items|
    decreases |items|
  {
    if items != [] {
      KvMapSize(items[..|items| - 1], prop);
    }
  }
}

=== FILE: merging.dfy ===
/**
  src/utils/merging.js: flattens batches in order and tags every item with the
  batch it came from.
 */
module Merging {
  import opened Wrappers
  import opened Json

  const DatasetIdField: string := "__datasetId"
  const DatasetOffsetField: string := "__datasetOffset"

  datatype MergeContext = MergeContext(batchCount: nat, totalInputItems: nat)

  datatype MergeResult = MergeResult(mergedItems: seq<Json>, context: MergeContext)

  /** `batch.datasetId || 'dataset'` */
  function BatchId(batch: Json): Json {
    match Member(batch, "datasetId")
    case Some(v) => if Truthy(v) then v else JStr("dataset")
    case None => JStr("dataset")
  }

  /** `typeof batch.datasetOffset === 'number' ? batch.datasetOffset : 0` */
  function BatchOffset(batch: Json): Json {
    match Member(batch, "datasetOffset")
    case Some(JNum(n)) => JNum(n)
    case _ => JNum(0)
  }

  /** `Array.isArray(batch.items) ? batch.items : []` */
  function BatchItems(batch: Json): seq<Json> {
    match Member(batch, "items")
    case Some(JArr(es)) => es
    case _ => []
  }

  /** `Object.assign({}, item, {__datasetId, __datasetOffset})`: a fresh object, provenance last. */
  function Enrich(item: Json, id: Json, offset: Json): Json {
    JObj(Assign(Assign(OwnFields(item), DatasetIdField, id), DatasetOffsetField, offset))
  }

  function EnrichAll(items: seq<Json>, id: Json, offset: Json): (r: seq<Json>)
    ensures |r| == |items|
    ensures forall j :: 0 <= j < |items| ==> r[j] == Enrich(items[j], id, offset)
  {
    seq(|items|, j requires 0 <= j < |items| => Enrich(items[j], id, offset))
  }

  /** The enriched items of every batch, batch after batch. */
  function MergedItems(batches: seq<Json>): seq<Json>
    decreases |batches|
  {
    if batches == [] then []
    else
      var last := batches[|batches| - 1];
      MergedItems(batches[..|batches| - 1]) + EnrichAll(BatchItems(last), BatchId(last), BatchOffset(last))
  }

  /** The number of raw items over all batches. */
  function TotalItems(batches: seq<Json>): nat
    decreases |batches|
  {
    if batches == [] then 0
    else TotalItems(batches[..|batches| - 1]) + |BatchItems(batches[|batches| - 1])|
  }

  /**
    What `mergeBatches(batches)` returns: the empty result for a non-array;
    the runtime's TypeError when some batch is `null`; otherwise the merged
    items and the counts.
   */
  function Merge(batches: Json): Result<MergeResult> {
    if !batches.JArr? then Success(MergeResult([], MergeContext(0, 0)))
    else if JNull in batches.elems then Fail(NullPropertyRead)
    else Success(MergeResult(MergedItems(batches.elems), MergeContext(|batches.elems|, TotalItems(batches.elems))))
  }

  method MergeBatches(batches: Json) returns (r: Result<MergeResult>)
    ensures r == Merge(batches)
    ensures r.Success? ==> |r.value.mergedItems| == r.value.context.totalInputItems
  {
    if !batches.JArr? {
      return Success(MergeResult([], MergeContext(0, 0)));
    }
    var bs := batches.elems;
    var mergedItems: seq<Json> := [];
    var totalInputItems := 0;
    for b := 0 to |bs|
      invariant mergedItems == MergedItems(bs[..b])
      invariant totalInputItems == TotalItems(bs[..b])
      invariant JNull !in bs[..b]
    {
      var batch := bs[b];
      if batch.JNull? {
        return Fail(NullPropertyRead);
      }
      var datasetId := BatchId(batch);
      var datasetOffset := BatchOffset(batch);
      var items := BatchItems(batch);
      totalInputItems := totalInputItems + |items|;
      var enriched := EnrichItems(items, datasetId, datasetOffset);
      mergedItems := mergedItems + enriched;
      SliceSnoc(bs, b);
      MergedSnoc(bs[..b], batch);
    }
    assert bs[..|bs|] == bs;
    MergedLength(bs);
    return Success(MergeResult(mergedItems, MergeContext(|bs|, totalInputItems)));
  }

  /** The inner loop of `mergeBatches`: the batch's items, each enriched with the batch's provenance, in order. */
  method EnrichItems(items: seq<Json>, datasetId: Json, datasetOffset: Json) returns (enriched: seq<Json>)
    ensures enriched == EnrichAll(items, datasetId, datasetOffset)
  {
    enriched := [];
    for j := 0 to |items|
      invariant enriched == EnrichAll(items[..j], datasetId, datasetOffset)
    {
      EnrichAllSnoc(items, j, datasetId, datasetOffset);
      enriched := enriched + [Enrich(items[j], datasetId, datasetOffset)];
    }
    assert items[..|items|] == items;
  }

  lemma EnrichAllSnoc(items: seq<Json>, j: nat, id: Json, offset: Json)
    requires j < |items|
    ensures EnrichAll(items[..j + 1], id, offset) == EnrichAll(items[..j], id, offset) + [Enrich(items[j], id, offset)]
  {
    assert items[..j + 1] == items[..j] + [items[j]];
  }

  lemma MergedSnoc(batches: seq<Json>, batch: Json)
    ensures MergedItems(batches + [batch])
         == MergedItems(batches) + EnrichAll(BatchItems(batch), BatchId(batch), BatchOffset(batch))
    ensures TotalItems(batches + [batch]) == TotalItems(batches) + |BatchItems(batch)|
  {
    assert (batches + [batch])[..|batches|] == batches;
  }

  /** Merging neither drops nor adds items: the merged count is the raw count. */
  lemma {:induction false} MergedLength(batches: seq<Json>)
    ensures |MergedItems(batches)| == TotalItems(batches)
    decreases |batches|
  {
    if batches != [] {
      MergedLength(batches[..|batches| - 1]);
    }
  }

  lemma {:induction false} MergedPrefix(batches: seq<Json>, n: nat)
    requires n <= |batches|
    ensures MergedItems(batches[..n]) <= MergedItems(batches)
    decreases |batches|
  {
    if n < |batches| {
      var init := batches[..|batches| - 1];
      MergedPrefix(init, n);
      assert init[..n] == batches[..n];
    } else {
      assert batches[..n] == batches;
    }
  }

  /**
    Order: item `j` of batch `b` lands right after the items of the batches
    before `b` and the items before it in its own batch, tagged with batch `b`.
   */
  lemma MergedAt(batches: seq<Json>, b: nat, j: nat)
    requires b < |batches| && j < |BatchItems(batches[b])|
    ensures TotalItems(batches[..b]) + j < |MergedItems(batches)|
    ensures MergedItems(batches)[TotalItems(batches[..b]) + j]
         == Enrich(BatchItems(batches[b])[j], BatchId(batches[b]), BatchOffset(batches[b]))
  {
    var upto := batches[..b + 1];
    var enriched := EnrichAll(BatchItems(batches[b]), BatchId(batches[b]), BatchOffset(batches[b]));
    assert upto[..b] == batches[..b] && upto[b] == batches[b];
    assert MergedItems(upto) == MergedItems(batches[..b]) + enriched;
    MergedLength(batches[..b]);
    MergedPrefix(batches, b + 1);
    assert MergedItems(upto)[TotalItems(batches[..b]) + j] == enriched[j];
  }

  /**
    Provenance: the enriched item reads the batch id and offset under the two
    reserved names, whatever the item held there.
   */
  lemma EnrichProvenance(item: Json, id: Json, offset: Json)
    ensures Member(Enrich(item, id, offset), DatasetIdField) == Some(id)
    ensures Member(Enrich(item, id, offset), DatasetOffsetField) == Some(offset)
  {
    var f1 := Assign(OwnFields(item), DatasetIdField, id);
    AssignLookup(OwnFields(item), DatasetIdField, id, DatasetIdField);
    AssignLookup(f1, DatasetOffsetField, offset, DatasetIdField);
  }

  /** Every field other than the two reserved ones reads as the item had it. */
  lemma EnrichKeepsFields(item: Json, id: Json, offset: Json, key: string)
    requires key != DatasetIdField && key != DatasetOffsetField
    ensures Member(Enrich(item, id, offset), key) == Lookup(OwnFields(item), key)
  {
    var f1 := Assign(OwnFields(item), DatasetIdField, id);
    AssignLookup(OwnFields(item), DatasetIdField, id, key);
    AssignLookup(f1, DatasetOffsetField, offset, key);
  }

  /** The item's fields keep their order in front, and the keys stay distinct. */
  lemma EnrichKeys(item: Json, id: Json, offset: Json)
    ensures Keys(OwnFields(item)) <= Keys(Enrich(item, id, offset).fields)
    ensures DistinctKeys(OwnFields(item)) ==> DistinctKeys(Enrich(item, id, offset).fields)
  {
    var f0 := OwnFields(item);
    var f1 := Assign(f0, DatasetIdField, id);
    AssignKeys(f0, DatasetIdField, id);
    AssignKeys(f1, DatasetOffsetField, offset);
    if DistinctKeys(f0) {
      AssignDistinct(f0, DatasetIdField, id);
      AssignDistinct(f1, DatasetOffsetField, offset);
    }
  }

  /** The batch an item is tagged with: its own truthy id, else `dataset`; its own numeric offset, else 0. */
  lemma ProvenanceDefaults(batch: Json)
    ensures Truthy(BatchId(batch))
    ensures BatchOffset(batch).JNum?
    ensures Member(batch, "datasetId").Some? && Truthy(Member(batch, "datasetId").value)
      ==> BatchId(batch) == Member(batch, "datasetId").value
    ensures !(Member(batch, "datasetId").Some? && Truthy(Member(batch, "datasetId").value))
      ==> BatchId(batch) == JStr("dataset")
    ensures Member(batch, "datasetOffset").Some? && Member(batch, "datasetOffset").value.JNum?
      ==> BatchOffset(batch) == Member(batch, "datasetOffset").value
    ensures !(Member(batch, "datasetOffset").Some? && Member(batch, "datasetOffset").value.JNum?)
      ==> BatchOffset(batch) == JNum(0)
  {
  }
}

=== FILE: pipeline.dfy ===
/**
  src/main.js: the data-shaping steps of the root pipeline. These are
  command-line parsing, the command-line overrides and defaults of the
  configuration, the recognition of the input's shape, the pre-transform stage,
  and the chain from merge through dedup and post-transform to the output payload.
 */
module Pipeline {
  import opened Wrappers
  import opened Text
  import opened Json
  import opened FirstOccurrence
  import opened Deduplication
  import opened Merging
  import opened Transformations

  // ---------------------------------------------------------------------------
  // parseArgs

  /** A parsed option: `--key value` binds the value, a bare `--key` is `true`. */
  datatype ArgValue = Flag | Value(text: string)

  /** `next && !next.startsWith('--')`: the token is taken as the option's value. */
  predicate IsOptionValue(next: string) {
    next != "" && !StartsWith(next, "--")
  }

  /** What parsing the tokens `ts` does to the options in `args`. */
  function ParseTokens(ts: seq<string>, args: map<string, ArgValue>): map<string, ArgValue>
    decreases |ts|
  {
    if ts == [] then args
    else if !StartsWith(ts[0], "--") then ParseTokens(ts[1..], args)
    else if |ts| > 1 && IsOptionValue(ts[1]) then ParseTokens(ts[2..], args[ts[0][2..] := Value(ts[1])])
    else ParseTokens(ts[1..], args[ts[0][2..] := Flag])
  }

  /** The tokens from position `i` on; none when `i` is past the end. */
  function From(argv: seq<string>, i: nat): seq<string> {
    if i <= |argv| then argv[i..] else []
  }

  /** The options `parseArgs(argv)` finds among the tokens after the first two. */
  function ParsedArgs(argv: seq<string>): map<string, ArgValue> {
    ParseTokens(From(argv, 2), map[])
  }

  /** `parseArgs(argv)` */
  method ParseArgs(argv: seq<string>) returns (args: map<string, ArgValue>)
    ensures args == ParsedArgs(argv)
  {
    args := map[];
    var i := 2;
    while i < |argv|
      invariant 2 <= i
      invariant ParseTokens(From(argv, i), args) == ParsedArgs(argv)
      decreases |argv| - i
    {
      var arg := argv[i];
      assert From(argv, i)[0] == arg && From(argv, i)[1..] == From(argv, i + 1);
      if StartsWith(arg, "--") {
        var key := arg[2..];
        if i + 1 < |argv| && IsOptionValue(argv[i + 1]) {
          assert From(argv, i)[1] == argv[i + 1] && From(argv, i)[2..] == From(argv, i + 2);
          args := args[key := Value(argv[i + 1])];
          i := i + 1;
        } else {
          args := args[key := Flag];
        }
      }
      i := i + 1;
    }
  }

  /** The option names of the `--` tokens among `ts`. */
  function OptionNames(ts: seq<string>): set<string> {
    if ts == [] then {}
    else (if StartsWith(ts[0], "--") then {ts[0][2..]} else {}) + OptionNames(ts[1..])
  }

  /**
    Every `--key` token yields an option, since a value never starts with `--`;
    no other option appears, and each bound value is a non-empty token that does
    not start with `--`.
   */
  lemma {:induction false} ParseTokensKeys(ts: seq<string>, args: map<string, ArgValue>)
    requires forall k :: k in args && args[k].Value? ==> IsOptionValue(args[k].text)
    ensures ParseTokens(ts, args).Keys == args.Keys + OptionNames(ts)
    ensures forall k :: k in ParseTokens(ts, args) && ParseTokens(ts, args)[k].Value? ==>
      IsOptionValue(ParseTokens(ts, args)[k].text)
    decreases |ts|
  {
    if ts != [] {
      if !StartsWith(ts[0], "--") {
        ParseTokensKeys(ts[1..], args);
      } else if |ts| > 1 && IsOptionValue(ts[1]) {
        ParseTokensKeys(ts[2..], args[ts[0][2..] := Value(ts[1])]);
        assert ts[1..][1..] == ts[2..];
        assert OptionNames(ts[1..]) == OptionNames(ts[2..]);
      } else {
        ParseTokensKeys(ts[1..], args[ts[0][2..] := Flag]);
      }
    }
  }

  /**
    Parsing overlays what the tokens bind on what was there: an option set
    again later replaces the earlier binding, and bindings no token names stay.
   */
  lemma {:induction false} ParseTokensOverlay(ts: seq<string>, args: map<string, ArgValue>)
    ensures ParseTokens(ts, args) == args + ParseTokens(ts, map[])
    decreases |ts|
  {
    if ts != [] && StartsWith(ts[0], "--") {
      var key := ts[0][2..];
      var v := if |ts| > 1 && IsOptionValue(ts[1]) then Value(ts[1]) else Flag;
      var rest := if |ts| > 1 && IsOptionValue(ts[1]) then ts[2..] else ts[1..];
      ParseTokensOverlay(rest, args[key := v]);
      ParseTokensOverlay(rest, map[key := v]);
      assert map[][key := v] == map[key := v];
      assert args[key := v] + ParseTokens(rest, map[]) == args + (map[key := v] + ParseTokens(rest, map[]));
    } else if ts != [] {
      ParseTokensOverlay(ts[1..], args);
    }
  }

  /** The keys of `parseArgs(argv)` are exactly the names of the `--` tokens after the first two. */
  lemma ParsedArgsKeys(argv: seq<string>)
    ensures ParsedArgs(argv).Keys == OptionNames(From(argv, 2))
    ensures forall k :: k in ParsedArgs(argv) && ParsedArgs(argv)[k].Value? ==>
      IsOptionValue(ParsedArgs(argv)[k].text)
  {
    ParseTokensKeys(From(argv, 2), map[]);
  }

  lemma ParseOption(key: string, v: string, rest: seq<string>, args: map<string, ArgValue>)
    requires IsOptionValue(v)
    ensures ParseTokens(["--" + key, v] + rest, args) == ParseTokens(rest, args[key := Value(v)])
  {
    var ts := ["--" + key, v] + rest;
    assert ts[0] == "--" + key && ts[1] == v && ts[2..] == rest;
    assert ts[0][..2] == "--" && ts[0][2..] == key;
  }

  lemma ParseFlag(key: string, rest: seq<string>, args: map<string, ArgValue>)
    requires rest == [] || !IsOptionValue(rest[0])
    ensures ParseTokens(["--" + key] + rest, args) == ParseTokens(rest, args[key := Flag])
  {
    var ts := ["--" + key] + rest;
    assert ts[0] == "--" + key && ts[1..] == rest;
    assert ts[0][..2] == "--" && ts[0][2..] == key;
  }

  /** The last occurrence of an option wins, and the program name and script path are never read. */
  lemma ParsedArgsExample()
    ensures ParsedArgs(["node", "main.js", "--dedupFields", "x", "--input", "in.json", "--verbose", "--dedupFields", "id,name", "stray"])
         == map["input" := Value("in.json"), "verbose" := Flag, "dedupFields" := Value("id,name")]
  {
    var argv := ["node", "main.js", "--dedupFields", "x", "--input", "in.json", "--verbose", "--dedupFields", "id,name", "stray"];
    assert From(argv, 2) == argv[2..] == ["--dedupFields", "x", "--input", "in.json", "--verbose", "--dedupFields", "id,name", "stray"];
    ExampleTokens();
  }

  /** The tokens of the example after the program name and script path, option by option. */
  lemma ExampleTokens()
    ensures ParseTokens(["--dedupFields", "x", "--input", "in.json", "--verbose", "--dedupFields", "id,name", "stray"], map[])
         == map["input" := Value("in.json"), "verbose" := Flag, "dedupFields" := Value("id,name")]
  {
    assert "--" + "input" == "--input" && "--" + "verbose" == "--verbose" && "--" + "dedupFields" == "--dedupFields";
    assert "in.json"[..2] == "in" && "id,name"[..2] == "id" && "stray"[..2] == "st";
    ParseShape("dedupFields", "x", "input", "in.json", "verbose", "dedupFields", "id,name", "stray", map[]);
    assert map[]["dedupFields" := Value("x")]["input" := Value("in.json")]["verbose" := Flag]["dedupFields" := Value("id,name")]
        == map["input" := Value("in.json"), "verbose" := Flag, "dedupFields" := Value("id,name")];
  }

  /** The shape of the example: two options with values, a flag, an option with a value and a stray token. */
  lemma ParseShape(k1: string, v1: string, k2: string, v2: string, k3: string, k4: string, v4: string, stray: string,
                   args: map<string, ArgValue>)
    requires IsOptionValue(v1) && IsOptionValue(v2) && IsOptionValue(v4) && IsOptionValue(stray)
    ensures ParseTokens(["--" + k1, v1, "--" + k2, v2, "--" + k3, "--" + k4, v4, stray], args)
         == args[k1 := Value(v1)][k2 := Value(v2)][k3 := Flag][k4 := Value(v4)]
  {
    var last := [stray];
    var t3 := ["--" + k4, v4] + last;
    var t2 := ["--" + k3] + t3;
    var t1 := ["--" + k2, v2] + t2;
    var t0 := ["--" + k1, v1] + t1;
    assert t0 == ["--" + k1, v1, "--" + k2, v2, "--" + k3, "--" + k4, v4, stray];
    var m0 := args[k1 := Value(v1)];
    var m1 := m0[k2 := Value(v2)];
    var m2 := m1[k3 := Flag];
    var m3 := m2[k4 := Value(v4)];
    ParseOption(k1, v1, t1, args);
    ParseOption(k2, v2, t2, m0);
    assert ("--" + k4)[..2] == "--";
    ParseFlag(k3, t3, m1);
    ParseOption(k4, v4, last, m2);
    assert ParseTokens(last, m3) == ParseTokens([], m3) by {
      assert last[1..] == [];
    }
  }

  // ---------------------------------------------------------------------------
  // loadConfig: command-line overrides and defaults

  /** `String(cliArgs[key])`: a bare flag reads as `"true"`. */
  function ArgText(v: ArgValue): string {
    match v
    case Flag => "true"
    case Value(t) => t
  }

  /** `cliArgs[key]` when it is truthy, as a string. */
  function CliSetting(cli: map<string, ArgValue>, key: string): Option<string> {
    if key in cli && (cli[key].Flag? || cli[key].text != "") then Some(ArgText(cli[key])) else None
  }

  /** `.map((f) => f.trim()).filter(Boolean)` */
  function TrimmedNonEmpty(parts: seq<string>): (r: seq<string>)
    ensures |r| <= |parts|
  {
    if parts == [] then []
    else (if Trim(parts[0]) == "" then [] else [Trim(parts[0])]) + TrimmedNonEmpty(parts[1..])
  }

  /** The field list a comma-separated `--dedupFields` value stands for. */
  function FieldList(s: string): seq<string> {
    TrimmedNonEmpty(Split(s, ','))
  }

  function Strings(ss: seq<string>): (r: seq<Json>)
    ensures |r| == |ss| && forall i :: 0 <= i < |ss| ==> r[i] == JStr(ss[i])
  {
    seq(|ss|, i requires 0 <= i < |ss| => JStr(ss[i]))
  }

  /** A field name as the command line can give it: non-empty, comma-free, trimmed. */
  predicate CleanField(f: string) {
    f != "" && ',' !in f && Trim(f) == f
  }

  lemma TrimOfTrimmed(s: string)
    ensures Trim(Trim(s)) == Trim(s)
    ensures forall c :: c in Trim(s) ==> c in s
  {
    var t := TrimStart(s);
    var u := TrimEnd(t);
    assert TrimStart(u) == u;
    assert TrimEnd(u) == u;
    TrimmedChars(s);
  }

  lemma TrimmedChars(s: string)
    ensures forall c :: c in Trim(s) ==> c in s
  {
    var t := TrimStart(s);
    var u := TrimEnd(t);
    forall c | c in u
      ensures c in s
    {
      var i :| 0 <= i < |u| && u[i] == c;
      assert t[i] == c;
      assert s[|s| - |t| + i] == c;
    }
  }

  lemma {:induction false} TrimmedNonEmptyClean(parts: seq<string>)
    requires forall p :: p in parts ==> ',' !in p
    ensures forall f :: f in TrimmedNonEmpty(parts) ==> CleanField(f)
  {
    if parts != [] {
      TrimOfTrimmed(parts[0]);
      TrimmedNonEmptyClean(parts[1..]);
    }
  }

  lemma {:induction false} TrimmedNonEmptyFixed(parts: seq<string>)
    requires forall p :: p in parts ==> CleanField(p)
    ensures TrimmedNonEmpty(parts) == parts
  {
    if parts != [] {
      assert parts[0] in parts;
      assert CleanField(parts[0]);
      TrimmedNonEmptyFixed(parts[1..]);
      assert parts == [parts[0]] + parts[1..];
    }
  }

  /** Every name of a `--dedupFields` list is non-empty, comma-free and trimmed. */
  lemma FieldListClean(s: string)
    ensures forall f :: f in FieldList(s) ==> CleanField(f)
  {
    SplitPartsFree(s, ',');
    TrimmedNonEmptyClean(Split(s, ','));
  }

  /** Writing a list of such names comma-separated and reading it back gives the list. */
  lemma FieldListJoin(fields: seq<string>)
    requires forall f :: f in fields ==> CleanField(f)
    ensures FieldList(Join(fields, ",")) == fields
  {
    if fields == [] {
      assert Split("", ',') == [""];
      assert TrimmedNonEmpty([""]) == [];
    } else {
      CleanSplitJoin(fields);
      TrimmedNonEmptyFixed(fields);
    }
  }

  lemma CleanSplitJoin(fields: seq<string>)
    requires |fields| >= 1
    requires forall f :: f in fields ==> CleanField(f)
    ensures Split(Join(fields, ","), ',') == fields
  {
    assert forall p :: p in fields ==> ',' !in p;
    SplitJoin(fields, ',');
  }

  /** The command-line `dedupFields` as the array of its trimmed, non-empty names. */
  function FieldsOverride(cli: map<string, ArgValue>): Option<Json> {
    match CliSetting(cli, "dedupFields")
    case Some(t) => Some(JArr(Strings(FieldList(t))))
    case None => None
  }

  /** The command-line `outputMode`, trimmed. */
  function ModeOverride(cli: map<string, ArgValue>): Option<Json> {
    match CliSetting(cli, "outputMode")
    case Some(t) => Some(JStr(Trim(t)))
    case None => None
  }

  /** `config[key] = value` when the command line gave a value. */
  function Overridden(config: seq<Field>, key: string, value: Option<Json>): seq<Field> {
    match value
    case Some(v) => Assign(config, key, v)
    case None => config
  }

  /** `if (!config[key]) config[key] = fallback` */
  function Defaulted(config: seq<Field>, key: string, fallback: string): seq<Field> {
    var current := Lookup(config, key);
    if current.None? || !Truthy(current.value) then Assign(config, key, JStr(fallback)) else config
  }

  /** `if (!config.dedupFields || !Array.isArray(config.dedupFields)) config.dedupFields = []` */
  function WithFieldArray(config: seq<Field>): seq<Field> {
    var current := Lookup(config, "dedupFields");
    if current.None? || !Truthy(current.value) || !current.value.JArr? then Assign(config, "dedupFields", JArr([])) else config
  }

  /** The configuration after the two overrides and the five defaults. */
  function Settled(config: seq<Field>, fields: Option<Json>, mode: Option<Json>): seq<Field> {
    var c3 := WithFieldArray(Overridden(Overridden(config, "dedupFields", fields), "outputMode", mode));
    Defaulted(Defaulted(Defaulted(Defaulted(c3, "outputMode", "dataset"), "preTransform", "normalizeStrings"),
      "postTransform", "sortById"), "logLevel", "info")
  }

  /** The configuration lines 42-71 of `loadConfig` leave behind. */
  function LoadedConfig(config: seq<Field>, cli: map<string, ArgValue>): seq<Field> {
    Settled(config, FieldsOverride(cli), ModeOverride(cli))
  }

  /** `if (!config[key]) config[key] = fallback` as a value: a truthy setting or the fallback. */
  function WithDefault(v: Option<Json>, fallback: string): Json {
    if v.Some? && Truthy(v.value) then v.value else JStr(fallback)
  }

  /** An override when there is one, else what the file gave. */
  function Either(value: Option<Json>, fallback: Option<Json>): Option<Json> {
    if value.Some? then value else fallback
  }

  /** A setting that must be an array: the value when it is one, else `[]`. */
  function ArrayOrEmpty(v: Option<Json>): Json {
    if v.Some? && v.value.JArr? then v.value else JArr([])
  }

  /**
    What each setting reads after settling: the two overridable settings their
    override, else the file's value, then the defaults; every other setting
    what the file gave it.
   */
  function SettledSetting(config: seq<Field>, fields: Option<Json>, mode: Option<Json>, key: string): Option<Json> {
    if key == "dedupFields" then Some(ArrayOrEmpty(Either(fields, Lookup(config, key))))
    else if key == "outputMode" then Some(WithDefault(Either(mode, Lookup(config, key)), "dataset"))
    else if key == "preTransform" then Some(WithDefault(Lookup(config, key), "normalizeStrings"))
    else if key == "postTransform" then Some(WithDefault(Lookup(config, key), "sortById"))
    else if key == "logLevel" then Some(WithDefault(Lookup(config, key), "info"))
    else Lookup(config, key)
  }

  /** The setting `key` after loading from `config` and the command line `cli`. */
  function LoadedSetting(config: seq<Field>, cli: map<string, ArgValue>, key: string): Option<Json> {
    SettledSetting(config, FieldsOverride(cli), ModeOverride(cli), key)
  }

  /** `if (cliArgs[...]) config[key] = value` */
  method Override(config: seq<Field>, key: string, value: Option<Json>) returns (r: seq<Field>)
    ensures r == Overridden(config, key, value)
  {
    r := config;
    if value.Some? {
      r := Assign(r, key, value.value);
    }
  }

  /** `if (!config.dedupFields || !Array.isArray(config.dedupFields)) config.dedupFields = []` */
  method EnsureFieldArray(config: seq<Field>) returns (r: seq<Field>)
    ensures r == WithFieldArray(config)
  {
    r := config;
    var current := Lookup(r, "dedupFields");
    if current.None? || !Truthy(current.value) || !current.value.JArr? {
      r := Assign(r, "dedupFields", JArr([]));
    }
  }

  /** `if (!config[key]) config[key] = fallback` */
  method Default(config: seq<Field>, key: string, fallback: string) returns (r: seq<Field>)
    ensures r == Defaulted(config, key, fallback)
  {
    r := config;
    var current := Lookup(r, key);
    if current.None? || !Truthy(current.value) {
      r := Assign(r, key, JStr(fallback));
    }
  }

  /**
    Lines 42-71 of `loadConfig` once the command-line values are read: the
    overrides replace the file's settings, then each setting that is still
    missing or falsy gets its default.
   */
  method Settle(config: seq<Field>, fields: Option<Json>, mode: Option<Json>) returns (r: seq<Field>)
    ensures r == Settled(config, fields, mode)
  {
    r := Override(config, "dedupFields", fields);
    r := Override(r, "outputMode", mode);
    r := EnsureFieldArray(r);
    r := Default(r, "outputMode", "dataset");
    r := Default(r, "preTransform", "normalizeStrings");
    r := Default(r, "postTransform", "sortById");
    r := Default(r, "logLevel", "info");
  }

  /** Lines 42-71 of `loadConfig`: reads the two command-line overrides, then settles. */
  method ApplyOverridesAndDefaults(config: seq<Field>, cli: map<string, ArgValue>) returns (r: seq<Field>)
    ensures r == LoadedConfig(config, cli)
  {
    var fields := FieldsOverride(cli);
    var mode := ModeOverride(cli);
    r := Settle(config, fields, mode);
  }

  lemma OverriddenLookup(config: seq<Field>, key: string, value: Option<Json>, other: string)
    ensures Lookup(Overridden(config, key, value), other)
         == if other == key then Either(value, Lookup(config, key)) else Lookup(config, other)
  {
    if value.Some? {
      AssignLookup(config, key, value.value, other);
    }
  }

  lemma DefaultedLookup(config: seq<Field>, key: string, fallback: string, other: string)
    ensures Lookup(Defaulted(config, key, fallback), other)
         == if other == key then Some(WithDefault(Lookup(config, key), fallback)) else Lookup(config, other)
  {
    AssignLookup(config, key, JStr(fallback), other);
  }

  lemma WithFieldArrayLookup(config: seq<Field>, other: string)
    ensures Lookup(WithFieldArray(config), other)
         == if other == "dedupFields" then Some(ArrayOrEmpty(Lookup(config, other))) else Lookup(config, other)
  {
    AssignLookup(config, "dedupFields", JArr([]), other);
  }

  /**
    Every setting reads as `SettledSetting` says: `dedupFields` is the
    override, else the file's array, else `[]`; `outputMode` is the override,
    else the file's, defaulting to `'dataset'`; the transforms and the log
    level default to `'normalizeStrings'`, `'sortById'` and `'info'`; nothing
    else changes.
   */
  lemma SettledLookup(config: seq<Field>, fields: Option<Json>, mode: Option<Json>, key: string)
    ensures Lookup(Settled(config, fields, mode), key) == SettledSetting(config, fields, mode, key)
  {
    var c1 := Overridden(config, "dedupFields", fields);
    OverriddenLookup(config, "dedupFields", fields, key);
    OverriddenLookup(config, "dedupFields", fields, "outputMode");
    var c2 := Overridden(c1, "outputMode", mode);
    OverriddenLookup(c1, "outputMode", mode, key);
    OverriddenLookup(c1, "outputMode", mode, "dedupFields");
    var c3 := WithFieldArray(c2);
    WithFieldArrayLookup(c2, key);
    WithFieldArrayLookup(c2, "outputMode");
    var c4 := Defaulted(c3, "outputMode", "dataset");
    DefaultedLookup(c3, "outputMode", "dataset", key);
    var c5 := Defaulted(c4, "preTransform", "normalizeStrings");
    DefaultedLookup(c4, "preTransform", "normalizeStrings", key);
    var c6 := Defaulted(c5, "postTransform", "sortById");
    DefaultedLookup(c5, "postTransform", "sortById", key);
    DefaultedLookup(c6, "logLevel", "info", key);
  }

  /** Loading from a file and a command line: each setting reads as `LoadedSetting` says. */
  lemma LoadedConfigLookup(config: seq<Field>, cli: map<string, ArgValue>, key: string)
    ensures Lookup(LoadedConfig(config, cli), key) == LoadedSetting(config, cli, key)
  {
    SettledLookup(config, FieldsOverride(cli), ModeOverride(cli), key);
  }

  lemma OverriddenDistinct(config: seq<Field>, key: string, value: Option<Json>)
    requires DistinctKeys(config)
    ensures DistinctKeys(Overridden(config, key, value))
  {
    if value.Some? {
      AssignDistinct(config, key, value.value);
    }
  }

  /** Loading keeps an object's keys distinct. */
  lemma SettledDistinct(config: seq<Field>, fields: Option<Json>, mode: Option<Json>)
    requires DistinctKeys(config)
    ensures DistinctKeys(Settled(config, fields, mode))
  {
    var c1 := Overridden(config, "dedupFields", fields);
    OverriddenDistinct(config, "dedupFields", fields);
    var c2 := Overridden(c1, "outputMode", mode);
    OverriddenDistinct(c1, "outputMode", mode);
    var c3 := WithFieldArray(c2);
    AssignDistinct(c2, "dedupFields", JArr([]));
    var c4 := Defaulted(c3, "outputMode", "dataset");
    AssignDistinct(c3, "outputMode", JStr("dataset"));
    var c5 := Defaulted(c4, "preTransform", "normalizeStrings");
    AssignDistinct(c4, "preTransform", JStr("normalizeStrings"));
    var c6 := Defaulted(c5, "postTransform", "sortById");
    AssignDistinct(c5, "postTransform", JStr("sortById"));
    AssignDistinct(c6, "logLevel", JStr("info"));
  }

  /** After loading, `dedupFields` is always an array and the other four settings are always truthy. */
  lemma LoadedConfigShape(config: seq<Field>, cli: map<string, ArgValue>)
    ensures LoadedSetting(config, cli, "dedupFields").Some? && LoadedSetting(config, cli, "dedupFields").value.JArr?
    ensures forall key :: key in ["outputMode", "preTransform", "postTransform", "logLevel"] ==>
      LoadedSetting(config, cli, key).Some? && Truthy(LoadedSetting(config, cli, key).value)
  {
    SettledShape(config, FieldsOverride(cli), ModeOverride(cli));
  }

  lemma SettledShape(config: seq<Field>, fields: Option<Json>, mode: Option<Json>)
    ensures SettledSetting(config, fields, mode, "dedupFields").Some? && SettledSetting(config, fields, mode, "dedupFields").value.JArr?
    ensures forall key :: key in ["outputMode", "preTransform", "postTransform", "logLevel"] ==>
      SettledSetting(config, fields, mode, key).Some? && Truthy(SettledSetting(config, fields, mode, key).value)
  {
    forall key | key in ["outputMode", "preTransform", "postTransform", "logLevel"]
      ensures SettledSetting(config, fields, mode, key).Some? && Truthy(SettledSetting(config, fields, mode, key).value)
    {
      var v := if key == "outputMode" then Either(mode, Lookup(config, key)) else Lookup(config, key);
      var fallback := if key == "outputMode" then "dataset" else if key == "preTransform" then "normalizeStrings"
        else if key == "postTransform" then "sortById" else "info";
      assert SettledSetting(config, fields, mode, key) == Some(WithDefault(v, fallback));
      DefaultTruthy(v, fallback);
    }
  }

  lemma DefaultTruthy(v: Option<Json>, fallback: string)
    requires fallback != ""
    ensures Truthy(WithDefault(v, fallback))
  {
  }

  /** A command-line `--dedupFields` list replaces the file's list (its names are clean by `FieldListClean`). */
  lemma CommandLineFields(config: seq<Field>, cli: map<string, ArgValue>, t: string)
    requires CliSetting(cli, "dedupFields") == Some(t)
    ensures LoadedSetting(config, cli, "dedupFields") == Some(JArr(Strings(FieldList(t))))
  {
  }

  /** A command-line `--outputMode` is trimmed; one that trims to nothing falls back to `'dataset'`. */
  lemma CommandLineMode(config: seq<Field>, cli: map<string, ArgValue>, t: string)
    requires CliSetting(cli, "outputMode") == Some(t)
    ensures LoadedSetting(config, cli, "outputMode") == Some(JStr(if Trim(t) == "" then "dataset" else Trim(t)))
  {
    var mode := JStr(Trim(t));
    assert ModeOverride(cli) == Some(mode);
    assert LoadedSetting(config, cli, "outputMode") == Some(WithDefault(Some(mode), "dataset"));
  }

  // ---------------------------------------------------------------------------
  // normaliseToBatches

  /** A batch as the pipeline carries it: `{ datasetId, datasetOffset, items }`. */
  datatype Batch = Batch(datasetId: Json, datasetOffset: Json, items: seq<Json>)

  /** `input.length > 0 && input[0] && typeof input[0] === 'object' && Array.isArray(input[0].items)` */
  predicate LooksLikeBatches(input: seq<Json>) {
    && |input| > 0
    && (input[0].JObj? || input[0].JArr?)
    && Member(input[0], "items").Some? && Member(input[0], "items").value.JArr?
  }

  /** `${fallbackDatasetId || 'dataset'}-${idx}` */
  function GeneratedId(fallback: string, idx: nat): string {
    (if fallback == "" then "dataset" else fallback) + "-" + NatToString(idx)
  }

  /** Entry `idx` of a batch-shaped input, with the defaults filled in. */
  function ToBatch(entry: Json, fallback: string, idx: nat): Batch {
    var id := Member(entry, "datasetId");
    Batch(if id.Some? && Truthy(id.value) then id.value else JStr(GeneratedId(fallback, idx)),
          BatchOffset(entry),
          BatchItems(entry))
  }

  /**
    `normaliseToBatches(input, fallbackDatasetId)`: a batch-shaped input gives
    one batch per entry, in order; any other array, the empty one included,
    becomes a single batch holding it.
   */
  function NormaliseToBatches(input: Json, fallback: string): (r: Result<seq<Batch>>)
    ensures r.Fail? <==> !input.JArr? || (LooksLikeBatches(input.elems) && JNull in input.elems)
    ensures !input.JArr? ==> r == Fail(PlainError("Input JSON must be an array."))
    ensures input.JArr? && LooksLikeBatches(input.elems) && r.Success? ==>
      |r.value| == |input.elems| && forall idx :: 0 <= idx < |r.value| ==> r.value[idx] == ToBatch(input.elems[idx], fallback, idx)
    ensures input.JArr? && !LooksLikeBatches(input.elems) ==>
      r == Success([Batch(JStr(if fallback == "" then "dataset-0" else fallback), JNum(0), input.elems)])
  {
    if !input.JArr? then Fail(PlainError("Input JSON must be an array."))
    else if LooksLikeBatches(input.elems) then
      if JNull in input.elems then Fail(NullPropertyRead)
      else Success(seq(|input.elems|, idx requires 0 <= idx < |input.elems| => ToBatch(input.elems[idx], fallback, idx)))
    else Success([Batch(JStr(if fallback == "" then "dataset-0" else fallback), JNum(0), input.elems)])
  }

  /**
    Batch defaults: the id is the entry's own when truthy and the generated one
    otherwise, the offset is the entry's own number or 0, and the items are the
    entry's array or empty. Every batch thus has a truthy id.
   */
  lemma ToBatchDefaults(entry: Json, fallback: string, idx: nat)
    ensures Truthy(ToBatch(entry, fallback, idx).datasetId)
    ensures (Member(entry, "datasetId").Some? && Truthy(Member(entry, "datasetId").value))
      || ToBatch(entry, fallback, idx).datasetId == JStr(GeneratedId(fallback, idx))
    ensures Member(entry, "datasetId").Some? && Truthy(Member(entry, "datasetId").value)
      ==> ToBatch(entry, fallback, idx).datasetId == Member(entry, "datasetId").value
    ensures ToBatch(entry, fallback, idx).datasetOffset.JNum?
    ensures Member(entry, "datasetOffset").Some? && Member(entry, "datasetOffset").value.JNum?
      ==> ToBatch(entry, fallback, idx).datasetOffset == Member(entry, "datasetOffset").value
    ensures !(Member(entry, "datasetOffset").Some? && Member(entry, "datasetOffset").value.JNum?)
      ==> ToBatch(entry, fallback, idx).datasetOffset == JNum(0)
    ensures Member(entry, "items").Some? && Member(entry, "items").value.JArr?
      ==> ToBatch(entry, fallback, idx).items == Member(entry, "items").value.elems
    ensures !(Member(entry, "items").Some? && Member(entry, "items").value.JArr?)
      ==> ToBatch(entry, fallback, idx).items == []
  {
  }

  /** Entries without an id of their own get pairwise distinct generated ids. */
  lemma GeneratedIdsDistinct(fallback: string, i: nat, j: nat)
    requires i != j
    ensures GeneratedId(fallback, i) != GeneratedId(fallback, j)
  {
    var p := (if fallback == "" then "dataset" else fallback) + "-";
    if GeneratedId(fallback, i) == GeneratedId(fallback, j) {
      assert NatToString(i) == GeneratedId(fallback, i)[|p|..];
      assert NatToString(j) == GeneratedId(fallback, j)[|p|..];
      NatToStringInjective(i, j);
    }
  }

  // ---------------------------------------------------------------------------
  // the stages after loading

  /** `batch.items.map((item) => preTransform(item, ctx))` for every batch, id and offset kept. */
  function PreTransformBatches(batches: seq<Batch>, pre: ItemTransform): (r: seq<Batch>)
    ensures |r| == |batches|
    ensures forall b :: 0 <= b < |batches| ==>
      && r[b].datasetId == batches[b].datasetId
      && r[b].datasetOffset == batches[b].datasetOffset
      && |r[b].items| == |batches[b].items|
      && forall j :: 0 <= j < |batches[b].items| ==> r[b].items[j] == ApplyItem(pre, batches[b].items[j])
  {
    seq(|batches|, b requires 0 <= b < |batches| =>
      var items := batches[b].items;
      Batch(batches[b].datasetId, batches[b].datasetOffset,
            seq(|items|, j requires 0 <= j < |items| => ApplyItem(pre, items[j]))))
  }

  /** A batch as the object `mergeBatches` reads. */
  function BatchObject(b: Batch): Json {
    JObj([("datasetId", b.datasetId), ("datasetOffset", b.datasetOffset), ("items", JArr(b.items))])
  }

  function BatchObjects(batches: seq<Batch>): (r: seq<Json>)
    ensures |r| == |batches| && forall b :: 0 <= b < |batches| ==> r[b] == BatchObject(batches[b])
  {
    seq(|batches|, b requires 0 <= b < |batches| => BatchObject(batches[b]))
  }

  /** The number of items over all batches. */
  function ItemCount(batches: seq<Batch>): nat {
    if batches == [] then 0 else |batches[0].items| + ItemCount(batches[1..])
  }

  /** `mergeBatches` reads back from a batch object exactly what the batch holds. */
  lemma BatchObjectFields(b: Batch)
    ensures BatchItems(BatchObject(b)) == b.items
    ensures Truthy(b.datasetId) ==> BatchId(BatchObject(b)) == b.datasetId
    ensures b.datasetOffset.JNum? ==> BatchOffset(BatchObject(b)) == b.datasetOffset
  {
    assert |"datasetId"| == 9 && |"datasetOffset"| == 13 && |"items"| == 5;
    LookupThree("datasetId", "datasetOffset", "items", b.datasetId, b.datasetOffset, JArr(b.items));
  }

  lemma {:induction false} ItemCountAppend(a: seq<Batch>, b: seq<Batch>)
    ensures ItemCount(a + b) == ItemCount(a) + ItemCount(b)
  {
    if a != [] {
      assert (a + b)[1..] == a[1..] + b;
      ItemCountAppend(a[1..], b);
    } else {
      assert a + b == b;
    }
  }

  /** The merge of the batch objects counts every item of every batch. */
  lemma {:induction false} TotalItemsOfBatches(batches: seq<Batch>)
    ensures TotalItems(BatchObjects(batches)) == ItemCount(batches)
    decreases |batches|
  {
    if batches != [] {
      var n := |batches| - 1;
      assert BatchObjects(batches)[..n] == BatchObjects(batches[..n]);
      TotalItemsOfBatches(batches[..n]);
      BatchObjectFields(batches[n]);
      ItemCountAppend(batches[..n], [batches[n]]);
      assert batches[..n] + [batches[n]] == batches;
      assert ItemCount([batches[n]]) == |batches[n].items| by {
        assert [batches[n]][1..] == [];
      }
    }
  }

  /** The pre-transform stage keeps every batch's item count. */
  lemma {:induction false} PreTransformKeepsCount(batches: seq<Batch>, pre: ItemTransform)
    ensures ItemCount(PreTransformBatches(batches, pre)) == ItemCount(batches)
  {
    if batches != [] {
      assert PreTransformBatches(batches, pre)[1..] == PreTransformBatches(batches[1..], pre);
      PreTransformKeepsCount(batches[1..], pre);
    }
  }

  /** The output record: `{ datasetId: 'merged', datasetOffset: 0, items, dedupFields, outputMode, transformationFunctions, stats }`. */
  datatype Payload = Payload(
    datasetId: string,
    datasetOffset: int,
    items: seq<Json>,
    dedupFields: Json,
    outputMode: Json,
    transformationFunctions: seq<Json>,
    stats: Stats)

  /** `config[key]`; a missing setting reads as `null`, which is how `JSON.stringify` writes it in an array. */
  function Setting(config: seq<Field>, key: string): Json {
    Lookup(config, key).GetOr(JNull)
  }

  /** The records the merge stage produces from the pre-transformed batches. */
  function StagedItems(batches: seq<Batch>, config: seq<Field>): seq<Json> {
    var pre := GetTransformFunctions(Setting(config, "preTransform"), Setting(config, "postTransform")).0;
    MergedItems(BatchObjects(PreTransformBatches(batches, pre)))
  }

  /**
    Lines 165-211 of `main`: resolve the transforms, pre-transform every batch,
    merge, deduplicate on the configured fields, post-transform what survived,
    and assemble the payload.
   */
  method RunStages(batches: seq<Batch>, config: seq<Field>) returns (r: Payload)
    requires StringFields(Setting(config, "dedupFields"))
    ensures var transforms := GetTransformFunctions(Setting(config, "preTransform"), Setting(config, "postTransform"));
      var key := KeyFor(FieldNames(Setting(config, "dedupFields").elems));
      var merged := StagedItems(batches, config);
      && r.items == ApplyCollection(transforms.1, JArr(Unique(merged, key)))
      && r.stats == Stats(|merged|, |Unique(merged, key)|, |Duplicates(merged, key)|)
    ensures r.datasetId == "merged" && r.datasetOffset == 0
    ensures r.dedupFields == Setting(config, "dedupFields") && r.outputMode == Setting(config, "outputMode")
    ensures r.transformationFunctions == [Setting(config, "preTransform"), Setting(config, "postTransform")]
    ensures r.stats.inputCount == ItemCount(batches)
    ensures r.stats.inputCount == r.stats.outputCount + r.stats.duplicateCount
    ensures |r.items| == r.stats.outputCount
  {
    var transforms := GetTransformFunctions(Setting(config, "preTransform"), Setting(config, "postTransform"));
    var transformed := PreTransformBatches(batches, transforms.0);
    var objects := BatchObjects(transformed);
    assert JNull !in objects;
    var merged := MergeBatches(JArr(objects));
    var fields := FieldNames(Setting(config, "dedupFields").elems);
    var dedup := Deduplicate(JArr(merged.value.mergedItems), fields);
    var finalItems := ApplyCollection(transforms.1, JArr(dedup.items));
    ApplyCollectionLength(transforms.1, dedup.items);
    MergedLength(objects);
    TotalItemsOfBatches(transformed);
    PreTransformKeepsCount(batches, transforms.0);
    r := Payload("merged", 0, finalItems, Setting(config, "dedupFields"), Setting(config, "outputMode"),
                 [Setting(config, "preTransform"), Setting(config, "postTransform")], dedup.stats);
  }
}

=== FILE: scraper_deduplicator.dfy ===
/**
  merge-dedup-transform-datasets-scraper/src/modules/deduplicator.js: the
  strict deduplicator, which refuses a non-array input and an empty field list.
 */
module ScraperDeduplicator {
  import opened Wrappers
  import opened Json
  import opened FirstOccurrence
  import opened ScraperUtils

  datatype StrictDedupResult = StrictDedupResult(items: seq<Json>, duplicateCount: nat)

  const ItemsError: Failure := TypeError("deduplicate expects an array of items.")
  const FieldsError: Failure := TypeError("deduplicate expects a non-empty array of fields.")

  /**
    `deduplicate(items, fields)`: a `TypeError` for a non-array `items`, then
    for a `fields` that is not a non-empty array; otherwise the first record
    of each key in input order and the number of records dropped. Field paths
    are strings.
   */
  method Deduplicate(items: Json, fields: Json) returns (r: Result<StrictDedupResult>)
    requires fields.JArr? ==> forall i :: 0 <= i < |fields.elems| ==> fields.elems[i].JStr?
    ensures !items.JArr? ==> r == Fail(ItemsError)
    ensures items.JArr? && (!fields.JArr? || |fields.elems| == 0) ==> r == Fail(FieldsError)
    ensures items.JArr? && fields.JArr? && |fields.elems| > 0 ==>
      var key := DedupKeyFor(FieldNames(fields.elems));
      r == Success(StrictDedupResult(Unique(items.elems, key), |Duplicates(items.elems, key)|))
    ensures r.Success? ==> |r.value.items| + r.value.duplicateCount == |items.elems|
  {
    if !items.JArr? {
      return Fail(ItemsError);
    }
    if !fields.JArr? || |fields.elems| == 0 {
      return Fail(FieldsError);
    }
    var s := items.elems;
    var key := DedupKeyFor(FieldNames(fields.elems));
    var seen: set<string> := {};
    var output: seq<Json> := [];
    var duplicateCount := 0;
    for i := 0 to |s|
      invariant output == Unique(s[..i], key)
      invariant duplicateCount == |Duplicates(s[..i], key)|
      invariant forall k :: k in seen <==> k in KeysOf(s[..i], key)
    {
      var item := s[i];
      var k := key(item);
      ScanStep(s, key, i);
      if k in seen {
        duplicateCount := duplicateCount + 1;
      } else {
        seen := seen + {k};
        output := output + [item];
      }
    }
    assert s[..|s|] == s;
    Conservation(s, key);
    r := Success(StrictDedupResult(output, duplicateCount));
  }

  /**
    The kept records carry pairwise distinct keys, every input key is among
    them, and each dropped record repeats the key of an earlier record.
   */
  lemma StrictDedupKeys(items: seq<Json>, fields: seq<string>)
    ensures var key := DedupKeyFor(fields);
      && (forall i, j :: 0 <= i < j < |Unique(items, key)| ==> key(Unique(items, key)[i]) != key(Unique(items, key)[j]))
      && (forall x :: x in items ==> exists y :: y in Unique(items, key) && key(y) == key(x))
  {
    var key := DedupKeyFor(fields);
    UniqueKeysDistinct(items, key);
    UniqueCoversKeys(items, key);
  }

  /**
    With several fields, two records that differ in one scalar field are both
    kept: the second is not a repeat of the first.
   */
  lemma DifferentFieldBothKept(a: Json, b: Json, fields: seq<string>, i: nat)
    requires i < |fields|
    requires forall j :: 0 <= j < |fields| ==> '|' !in DedupPart(a, fields[j]) && '|' !in DedupPart(b, fields[j])
    requires PathValue(a, fields[i]).Some? ==> Scalar(PathValue(a, fields[i]).value)
    requires PathValue(b, fields[i]).Some? ==> Scalar(PathValue(b, fields[i]).value)
    requires PathValue(a, fields[i]) != PathValue(b, fields[i])
    ensures Unique([a, b], DedupKeyFor(fields)) == [a, b]
  {
    DedupKeySeparates(a, b, fields, i);
    var key := DedupKeyFor(fields);
    assert key(a) != key(b);
    BothKept(a, b, key);
  }

  /** Two records with different keys are both kept, in order. */
  lemma BothKept(a: Json, b: Json, key: KeyFn)
    requires key(a) != key(b)
    ensures Unique([a, b], key) == [a, b]
  {
    PickSnoc([], a, key, true);
    assert [a] == [] + [a];
    assert Pick([a], key, true) == [a];
    PickSnoc([a], b, key, true);
    assert [a, b] == [a] + [b];
  }
}

=== FILE: scraper_merger.dfy ===
/**
  merge-dedup-transform-datasets-scraper/src/modules/merger.js: the strict
  merge, a plain in-order concatenation of arrays that refuses anything else.
 */
module ScraperMerger {
  import opened Wrappers
  import opened Text
  import opened Json

  const DatasetsError: Failure := TypeError("mergeDatasets expects an array of datasets.")

  function DatasetError(i: nat): Failure {
    TypeError("Dataset at index " + NatToString(i) + " is not an array.")
  }

  /** The index of the first element that is not an array, if any. */
  function FirstNonArray(ds: seq<Json>): (r: Option<nat>)
    ensures r.Some? ==> r.value < |ds| && !ds[r.value].JArr? && forall j :: 0 <= j < r.value ==> ds[j].JArr?
    ensures r.None? ==> forall j :: 0 <= j < |ds| ==> ds[j].JArr?
  {
    if ds == [] then None
    else if !ds[0].JArr? then Some(0)
    else match FirstNonArray(ds[1..])
      case None => None
      case Some(i) => Some(i + 1)
  }

  /** The concatenation of the arrays in `ds`, in order (non-arrays contribute nothing). */
  function Concat(ds: seq<Json>): seq<Json>
    decreases |ds|
  {
    if ds == [] then []
    else Concat(ds[..|ds| - 1]) + (if ds[|ds| - 1].JArr? then ds[|ds| - 1].elems else [])
  }

  /** The sum of the lengths of the arrays in `ds`. */
  function TotalLength(ds: seq<Json>): nat
    decreases |ds|
  {
    if ds == [] then 0
    else TotalLength(ds[..|ds| - 1]) + (if ds[|ds| - 1].JArr? then |ds[|ds| - 1].elems| else 0)
  }

  /** What `mergeDatasets(datasets)` returns or throws. */
  function MergedDatasets(datasets: Json): Result<seq<Json>> {
    if !datasets.JArr? then Fail(DatasetsError)
    else match FirstNonArray(datasets.elems)
      case Some(i) => Fail(DatasetError(i))
      case None => Success(Concat(datasets.elems))
  }

  /**
    `mergeDatasets(datasets)`: pushes the items of each dataset in turn,
    counting them in `total`; the first dataset that is not an array aborts the
    merge with a `TypeError` naming its index.
   */
  method MergeDatasets(datasets: Json) returns (r: Result<seq<Json>>)
    ensures r == MergedDatasets(datasets)
  {
    if !datasets.JArr? {
      return Fail(DatasetsError);
    }
    var ds := datasets.elems;
    var result: seq<Json> := [];
    var total := 0;
    for i := 0 to |ds|
      invariant result == Concat(ds[..i])
      invariant total == |result|
      invariant forall j :: 0 <= j < i ==> ds[j].JArr?
    {
      var d := ds[i];
      if !d.JArr? {
        assert FirstNonArray(ds) == Some(i);
        return Fail(DatasetError(i));
      }
      assert ds[..i + 1][..i] == ds[..i];
      for j := 0 to |d.elems|
        invariant result == Concat(ds[..i]) + d.elems[..j]
        invariant total == |result|
      {
        result := result + [d.elems[j]];
        total := total + 1;
      }
      assert d.elems[..|d.elems|] == d.elems;
    }
    assert ds[..|ds|] == ds;
    return Success(result);
  }

  /** The merged length is the sum of the dataset lengths. */
  lemma {:induction false} ConcatLength(ds: seq<Json>)
    ensures |Concat(ds)| == TotalLength(ds)
    decreases |ds|
  {
    if ds != [] {
      ConcatLength(ds[..|ds| - 1]);
    }
  }

  /** Merging arrays in two groups is merging each group and concatenating. */
  lemma {:induction false} ConcatAppend(a: seq<Json>, b: seq<Json>)
    ensures Concat(a + b) == Concat(a) + Concat(b)
    decreases |b|
  {
    if b == [] {
      assert a + b == a;
    } else {
      var b' := b[..|b| - 1];
      assert (a + b)[..|a + b| - 1] == a + b';
      ConcatAppend(a, b');
    }
  }

  /**
    Order and pass-through: item `j` of dataset `i` sits right after the
    items of the datasets before it and the items before it, unchanged.
   */
  lemma ConcatAt(ds: seq<Json>, i: nat, j: nat)
    requires i < |ds| && ds[i].JArr? && j < |ds[i].elems|
    ensures TotalLength(ds[..i]) + j < |Concat(ds)|
    ensures Concat(ds)[TotalLength(ds[..i]) + j] == ds[i].elems[j]
  {
    var upto := ds[..i + 1];
    assert upto[..i] == ds[..i];
    assert Concat(upto) == Concat(ds[..i]) + ds[i].elems;
    assert upto + ds[i + 1..] == ds;
    ConcatAppend(upto, ds[i + 1..]);
    ConcatLength(ds[..i]);
  }

  /** An empty list of datasets merges to nothing; a single array merges to itself. */
  lemma MergeEdgeCases(d: seq<Json>)
    ensures MergedDatasets(JArr([])) == Success([])
    ensures MergedDatasets(JArr([JArr(d)])) == Success(d)
  {
    var ds := [JArr(d)];
    assert ds[..0] == [] && ds[1..] == [];
    assert FirstNonArray(ds) == None;
    assert Concat(ds) == d;
  }
}

=== FILE: scraper_transformer.dfy ===
/**
  merge-dedup-transform-datasets-scraper/src/modules/transformer.js: per-item
  pre- and post-transforms with fault isolation.

  A user transform is a function of the item and its index; `None` stands
  for a call that throws. A transform that is not supplied (not a function)
  is `None` at the option level.
 */
module ScraperTransformer {
  import opened Wrappers
  import opened Json

  type Transform = (Json, nat) -> Option<Json>

  const ItemsError: Failure := TypeError("runTransforms expects an array of items.")

  /** `try { return t(item, index) } catch { return item }` */
  function Attempt(t: Transform, item: Json, index: nat): (r: Json)
    ensures t(item, index).None? ==> r == item
    ensures t(item, index).Some? ==> r == t(item, index).value
  {
    match t(item, index)
    case Some(y) => y
    case None => item
  }

  /** `working.map(...)` for a supplied transform; the items themselves otherwise. */
  function Stage(items: seq<Json>, t: Option<Transform>): (r: seq<Json>)
    ensures |r| == |items|
    ensures forall i :: 0 <= i < |items| ==> r[i] == if t.Some? then Attempt(t.value, items[i], i) else items[i]
  {
    match t
    case None => items
    case Some(f) => seq(|items|, i requires 0 <= i < |items| => Attempt(f, items[i], i))
  }

  /** `runTransforms(items, { preTransform, postTransform })` */
  function RunTransforms(items: Json, pre: Option<Transform>, post: Option<Transform>): (r: Result<seq<Json>>)
    ensures !items.JArr? <==> r == Fail(ItemsError)
  {
    if !items.JArr? then Fail(ItemsError)
    else Success(Stage(Stage(items.elems, pre), post))
  }

  /**
    An array keeps its length, and item `i` of the result is the
    post-transform of the pre-transform of item `i`, each called with index
    `i`; a stage that throws on an item leaves that item as it was before the
    stage.
   */
  lemma RunTransformsPointwise(items: seq<Json>, pre: Option<Transform>, post: Option<Transform>)
    ensures RunTransforms(JArr(items), pre, post).Success?
    ensures var out := RunTransforms(JArr(items), pre, post).value;
      && |out| == |items|
      && forall i :: 0 <= i < |items| ==>
        var mid := if pre.Some? then Attempt(pre.value, items[i], i) else items[i];
        out[i] == if post.Some? then Attempt(post.value, mid, i) else mid
  {
    var mid := Stage(items, pre);
    assert forall i :: 0 <= i < |items| ==> mid[i] == if pre.Some? then Attempt(pre.value, items[i], i) else items[i];
  }

  /** With neither transform supplied, the items come back unchanged. */
  lemma NoTransformsIdentity(items: seq<Json>)
    ensures RunTransforms(JArr(items), None, None) == Success(items)
  {
  }

  /**
    Fault isolation: if both stages throw on item `i`, item `i` comes back as
    it went in, whatever the stages do to the other items.
   */
  lemma FaultIsolation(items: seq<Json>, pre: Transform, post: Transform, i: nat)
    requires i < |items|
    requires pre(items[i], i).None? && post(items[i], i).None?
    ensures RunTransforms(JArr(items), Some(pre), Some(post)).value[i] == items[i]
  {
    RunTransformsPointwise(items, Some(pre), Some(post));
  }
}

=== FILE: scraper_utils.dfy ===
/**
  merge-dedup-transform-datasets-scraper/src/modules/utils.js: dot-path
  resolution and the strict variant's composite dedup key.
 */
module ScraperUtils {
  import opened Wrappers
  import opened Text
  import opened Json
  import opened FirstOccurrence

  /** Stands for an absent value in a key part. */
  const MissingMarker: string := "__MISSING__"

  /** `typeof v === 'object'` for a value that is not `null`. */
  predicate IsObjectLike(v: Json) {
    v.JObj? || v.JArr?
  }

  /**
    `deepGet(obj, fieldPath)`: nothing for a falsy or non-object `obj` or an
    empty path; otherwise walks the dot segments, stopping with nothing as soon
    as the current value is not an object or lacks the segment.
   */
  method DeepGet(obj: Json, path: string) returns (r: Option<Json>)
    ensures r == PathValue(obj, path)
    ensures !IsObjectLike(obj) || path == "" ==> r == None
  {
    if !Truthy(obj) || !IsObjectLike(obj) {
      return None;
    }
    if path == "" {
      return None;
    }
    var segments := Split(path, '.');
    var current := obj;
    for i := 0 to |segments|
      invariant Walk(obj, segments) == Walk(current, segments[i..])
    {
      var segment := segments[i];
      assert segments[i..][0] == segment && segments[i..][1..] == segments[i + 1..];
      if current.JNull? || !IsObjectLike(current) {
        return None;
      }
      if !(current.JObj? && segment in Keys(current.fields)) {
        return None;
      }
      current := Lookup(current.fields, segment).value;
    }
    assert segments[|segments|..] == [];
    return Some(current);
  }

  /** One part of a key: the JSON of the value at `field`, or the missing marker. */
  function DedupPart(item: Json, field: string): string {
    match PathValue(item, field)
    case None => MissingMarker
    case Some(v) => Serialize(v)
  }

  function DedupParts(item: Json, fields: seq<string>): (parts: seq<string>)
    ensures |parts| == |fields|
    ensures forall i :: 0 <= i < |fields| ==> parts[i] == DedupPart(item, fields[i])
  {
    seq(|fields|, i requires 0 <= i < |fields| => DedupPart(item, fields[i]))
  }

  /** `buildDedupKey(item, fields)`: the parts in field order joined by `|`. */
  function BuildDedupKey(item: Json, fields: seq<string>): string {
    Join(DedupParts(item, fields), "|")
  }

  /** The key of a record as the strict deduplicator uses it. */
  function DedupKeyFor(fields: seq<string>): KeyFn {
    item => BuildDedupKey(item, fields)
  }

  /** The missing marker is not the serialisation of any value, `null` included. */
  lemma MissingMarkerDistinct(v: Json)
    ensures Serialize(v) != MissingMarker
  {
    assert Serialize(v)[0] != MissingMarker[0];
  }

  /** A part is the missing marker exactly when the path resolves to nothing. */
  lemma DedupPartMissing(item: Json, field: string)
    ensures DedupPart(item, field) == MissingMarker <==> PathValue(item, field).None?
  {
    if PathValue(item, field).Some? {
      MissingMarkerDistinct(PathValue(item, field).value);
    }
  }

  /**
    The key has exactly one part per field, in field order: splitting it at
    `|` gives the parts back whenever no part holds a `|`.
   */
  lemma DedupKeySplits(item: Json, fields: seq<string>)
    requires |fields| > 0
    requires forall i :: 0 <= i < |fields| ==> '|' !in DedupPart(item, fields[i])
    ensures Split(BuildDedupKey(item, fields), '|') == DedupParts(item, fields)
  {
    var parts := DedupParts(item, fields);
    assert forall p :: p in parts ==> '|' !in p;
    SplitJoin(parts, '|');
  }

  /** The key depends only on the values found at the configured paths. */
  lemma DedupKeyDependsOnPaths(a: Json, b: Json, fields: seq<string>)
    requires forall f :: f in fields ==> PathValue(a, f) == PathValue(b, f)
    ensures BuildDedupKey(a, fields) == BuildDedupKey(b, fields)
  {
    assert DedupParts(a, fields) == DedupParts(b, fields);
  }

  /**
    Records that differ at one configured path get different keys, provided
    no part holds a `|` and the differing values are scalars (absent counts).
   */
  lemma DedupKeySeparates(a: Json, b: Json, fields: seq<string>, i: nat)
    requires i < |fields|
    requires forall j :: 0 <= j < |fields| ==> '|' !in DedupPart(a, fields[j]) && '|' !in DedupPart(b, fields[j])
    requires PathValue(a, fields[i]).Some? ==> Scalar(PathValue(a, fields[i]).value)
    requires PathValue(b, fields[i]).Some? ==> Scalar(PathValue(b, fields[i]).value)
    requires PathValue(a, fields[i]) != PathValue(b, fields[i])
    ensures BuildDedupKey(a, fields) != BuildDedupKey(b, fields)
  {
    if BuildDedupKey(a, fields) == BuildDedupKey(b, fields) {
      DedupKeySplits(a, fields);
      DedupKeySplits(b, fields);
      assert DedupPart(a, fields[i]) == DedupPart(b, fields[i]);
      DedupPartMissing(a, fields[i]);
      DedupPartMissing(b, fields[i]);
      var va := PathValue(a, fields[i]);
      var vb := PathValue(b, fields[i]);
      if va.Some? && vb.Some? {
        SerializeScalarInjective(va.value, vb.value);
      }
    }
  }
}

=== FILE: text.dfy ===
/**
  String primitives the pipeline relies on: `split`, `join`, `trim`, the
  whitespace class of the regular expression `\s`, ASCII lower-casing, and the
  decimal form of an integer. Whitespace and case are restricted to ASCII.
 */
module Text {

  /** A character matched by `\s` (ASCII part): space, tab, LF, VT, FF, CR. */
  predicate IsWs(c: char) {
    c == ' ' || c == '\t' || c == '\n' || c == '\U{000B}' || c == '\U{000C}' || c == '\r'
  }

  predicate IsUpper(c: char) { 'A' <= c <= 'Z' }

  // ---------------------------------------------------------------------------
  // split and join

  /** `s.split(sep)`: the pieces between occurrences of `sep`; never empty. */
  function Split(s: string, sep: char): (parts: seq<string>)
    ensures |parts| >= 1
  {
    if s == [] then [[]]
    else
      var rest := Split(s[1..], sep);
      if s[0] == sep then [[]] + rest else [[s[0]] + rest[0]] + rest[1..]
  }

  /** `parts.join(sep)`: the empty list joins to the empty string. */
  function Join(parts: seq<string>, sep: string): string {
    if |parts| == 0 then ""
    else if |parts| == 1 then parts[0]
    else parts[0] + sep + Join(parts[1..], sep)
  }

  /** No piece of a split contains the separator. */
  lemma {:induction false} SplitPartsFree(s: string, sep: char)
    ensures forall p :: p in Split(s, sep) ==> sep !in p
  {
    if s != [] {
      SplitPartsFree(s[1..], sep);
    }
  }

  /** Joining the pieces of a split with the same separator gives the string back. */
  lemma {:induction false} JoinSplit(s: string, sep: char)
    ensures Join(Split(s, sep), [sep]) == s
  {
    if s != [] {
      var rest := Split(s[1..], sep);
      JoinSplit(s[1..], sep);
      if s[0] != sep && |rest| > 1 {
        assert Join(Split(s, sep), [sep]) == [s[0]] + rest[0] + [sep] + Join(rest[1..], [sep]);
      }
    }
  }

  lemma {:induction false} SplitAppend(a: string, t: string, sep: char)
    requires sep !in a
    ensures Split(a + t, sep) == [a + Split(t, sep)[0]] + Split(t, sep)[1..]
  {
    if a != [] {
      var r := Split(t, sep);
      assert (a + t)[1..] == a[1..] + t;
      SplitAppend(a[1..], t, sep);
      assert Split(a + t, sep) == [[a[0]] + (a[1..] + r[0])] + r[1..];
      assert [a[0]] + (a[1..] + r[0]) == a + r[0];
    } else {
      var r := Split(t, sep);
      assert a + t == t;
      assert a + r[0] == r[0];
      assert [a + r[0]] + r[1..] == r;
    }
  }

  /** Splitting a join of separator-free pieces gives the pieces back. */
  lemma {:induction false} SplitJoin(parts: seq<string>, sep: char)
    requires |parts| >= 1
    requires forall p :: p in parts ==> sep !in p
    ensures Split(Join(parts, [sep]), sep) == parts
  {
    if |parts| == 1 {
      SplitAppend(parts[0], [], sep);
      assert parts[0] + [] == parts[0];
    } else {
      var tail := Join(parts[1..], [sep]);
      assert Join(parts, [sep]) == parts[0] + ([sep] + tail);
      SplitJoin(parts[1..], sep);
      SplitAppend(parts[0], [sep] + tail, sep);
      assert ([sep] + tail)[1..] == tail;
      assert Split([sep] + tail, sep) == [[]] + parts[1..];
      assert parts[0] + [] == parts[0];
      assert parts == [parts[0]] + parts[1..];
    }
  }

  /** A join has one piece per element: its length is the pieces' total plus the separators. */
  lemma {:induction false} JoinLength(parts: seq<string>, sep: string)
    requires |parts| >= 1
    ensures |Join(parts, sep)| == TotalLength(parts) + (|parts| - 1) * |sep|
  {
    if |parts| > 1 {
      JoinLength(parts[1..], sep);
    }
  }

  function TotalLength(parts: seq<string>): nat {
    if parts == [] then 0 else |parts[0]| + TotalLength(parts[1..])
  }

  // ---------------------------------------------------------------------------
  // prefixes and substrings

  /** `s.startsWith(prefix)` */
  predicate StartsWith(s: string, prefix: string) {
    |prefix| <= |s| && s[..|prefix|] == prefix
  }

  /** `s.includes(sub)` */
  predicate Contains(s: string, sub: string)
    decreases |s|
  {
    StartsWith(s, sub) || (s != [] && Contains(s[1..], sub))
  }

  // ---------------------------------------------------------------------------
  // whitespace

  /** Drops leading whitespace. */
  function TrimStart(s: string): (r: string)
    ensures |r| <= |s| && r == s[|s| - |r|..]
    ensures r == [] || !IsWs(r[0])
    ensures forall i :: 0 <= i < |s| - |r| ==> IsWs(s[i])
  {
    if s != [] && IsWs(s[0]) then TrimStart(s[1..]) else s
  }

  /** Drops trailing whitespace. */
  function TrimEnd(s: string): (r: string)
    ensures |r| <= |s| && r == s[..|r|]
    ensures r == [] || !IsWs(r[|r| - 1])
    ensures forall i :: |r| <= i < |s| ==> IsWs(s[i])
  {
    if s != [] && IsWs(s[|s| - 1]) then TrimEnd(s[..|s| - 1]) else s
  }

  /** `s.trim()` */
  function Trim(s: string): string {
    TrimEnd(TrimStart(s))
  }

  /** `s.replace(/\s+/g, ' ')`: every maximal whitespace run becomes one space. */
  function Collapse(s: string): string
    decreases |s|
  {
    if s == [] then []
    else if IsWs(s[0]) then [' '] + Collapse(TrimStart(s))
    else [s[0]] + Collapse(s[1..])
  }

  /** The characters of `s` that are not whitespace, in order. */
  function Squeeze(s: string): string {
    if s == [] then [] else (if IsWs(s[0]) then [] else [s[0]]) + Squeeze(s[1..])
  }

  /** No whitespace character is followed by another. */
  predicate NoWsRuns(s: string) {
    forall i :: 0 <= i < |s| - 1 ==> !(IsWs(s[i]) && IsWs(s[i + 1]))
  }

  /** A collapse keeps a non-whitespace first character in front. */
  lemma CollapseHead(s: string)
    requires s != [] && !IsWs(s[0])
    ensures Collapse(s) != [] && Collapse(s)[0] == s[0]
  {
  }

  /** A collapse of a string that ends in non-whitespace ends in non-whitespace. */
  lemma {:induction false} CollapseLast(s: string)
    requires s != [] && !IsWs(s[|s| - 1])
    ensures Collapse(s) != [] && !IsWs(Collapse(s)[|Collapse(s)| - 1])
    decreases |s|
  {
    if IsWs(s[0]) {
      var t := TrimStart(s);
      assert t != [] && t[|t| - 1] == s[|s| - 1];
      CollapseLast(t);
    } else if |s| > 1 {
      CollapseLast(s[1..]);
    }
  }

  /** After a collapse no two whitespace characters are adjacent, and every whitespace character is a space. */
  lemma {:induction false} CollapseShape(s: string)
    ensures NoWsRuns(Collapse(s))
    ensures forall i :: 0 <= i < |Collapse(s)| && IsWs(Collapse(s)[i]) ==> Collapse(s)[i] == ' '
    decreases |s|
  {
    if s == [] {
    } else if IsWs(s[0]) {
      var t := TrimStart(s);
      CollapseShape(t);
      if t != [] {
        CollapseHead(t);
      }
      var c := Collapse(s);
      assert c == [' '] + Collapse(t);
      forall i | 0 <= i < |c| - 1
        ensures !(IsWs(c[i]) && IsWs(c[i + 1]))
      {
        if i > 0 {
          assert c[i] == Collapse(t)[i - 1] && c[i + 1] == Collapse(t)[i];
        }
      }
    } else {
      CollapseShape(s[1..]);
      var c := Collapse(s);
      assert c == [s[0]] + Collapse(s[1..]);
      forall i | 0 <= i < |c| - 1
        ensures !(IsWs(c[i]) && IsWs(c[i + 1]))
      {
        if i > 0 {
          assert c[i] == Collapse(s[1..])[i - 1] && c[i + 1] == Collapse(s[1..])[i];
        }
      }
    }
  }

  lemma {:induction false} SqueezeAppend(a: string, b: string)
    ensures Squeeze(a + b) == Squeeze(a) + Squeeze(b)
  {
    if a != [] {
      assert (a + b)[1..] == a[1..] + b;
      SqueezeAppend(a[1..], b);
    } else {
      assert a + b == b;
    }
  }

  /** Trimming the front drops whitespace only. */
  lemma {:induction false} SqueezeTrimStart(s: string)
    ensures Squeeze(TrimStart(s)) == Squeeze(s)
  {
    if s != [] && IsWs(s[0]) {
      SqueezeTrimStart(s[1..]);
    }
  }

  /** Trimming the back drops whitespace only. */
  lemma {:induction false} SqueezeTrimEnd(s: string)
    ensures Squeeze(TrimEnd(s)) == Squeeze(s)
    decreases |s|
  {
    if s != [] && IsWs(s[|s| - 1]) {
      var init := s[..|s| - 1];
      SqueezeTrimEnd(init);
      assert s == init + [s[|s| - 1]];
      SqueezeAppend(init, [s[|s| - 1]]);
    }
  }

  /** A collapse drops or replaces whitespace only: the other characters survive in order. */
  lemma {:induction false} SqueezeCollapse(s: string)
    ensures Squeeze(Collapse(s)) == Squeeze(s)
    decreases |s|
  {
    if s == [] {
    } else if IsWs(s[0]) {
      var t := TrimStart(s);
      SqueezeCollapse(t);
      SqueezeTrimStart(s);
      SqueezeAppend([' '], Collapse(t));
    } else {
      SqueezeCollapse(s[1..]);
      SqueezeAppend([s[0]], Collapse(s[1..]));
    }
  }

  /** Every whitespace character of `s` is a plain space. */
  predicate OnlySpaces(s: string) {
    forall i :: 0 <= i < |s| && IsWs(s[i]) ==> s[i] == ' '
  }

  /**
    The shape of a trimmed and collapsed string: no whitespace at either end,
    no two whitespace characters side by side, and spaces only.
   */
  predicate Tidy(s: string) {
    && (s == [] || (!IsWs(s[0]) && !IsWs(s[|s| - 1])))
    && NoWsRuns(s)
    && OnlySpaces(s)
  }

  /** `s.trim().replace(/\s+/g, ' ')` always has the tidy shape. */
  lemma TrimCollapseTidy(s: string)
    ensures Tidy(Collapse(Trim(s)))
  {
    var t := Trim(s);
    CollapseShape(t);
    if t != [] {
      assert TrimStart(s) != [];
      var u := TrimStart(s);
      assert t[0] == u[0];
      CollapseHead(t);
      CollapseLast(t);
    }
  }

  /** A collapse leaves a string without whitespace runs and with spaces only unchanged. */
  lemma {:induction false} CollapseFixed(s: string)
    requires NoWsRuns(s) && OnlySpaces(s)
    ensures Collapse(s) == s
    decreases |s|
  {
    if s != [] {
      assert NoWsRuns(s[1..]) && OnlySpaces(s[1..]) by {
        forall i | 0 <= i < |s[1..]| - 1
          ensures !(IsWs(s[1..][i]) && IsWs(s[1..][i + 1]))
        {
          assert s[1..][i] == s[i + 1] && s[1..][i + 1] == s[i + 2];
        }
      }
      CollapseFixed(s[1..]);
      if IsWs(s[0]) {
        assert TrimStart(s) == TrimStart(s[1..]);
        assert s[1..] == [] || !IsWs(s[1]);
        assert TrimStart(s[1..]) == s[1..];
      }
    }
  }

  /** Normalising a tidy string again changes nothing. */
  lemma TidyFixed(s: string)
    requires Tidy(s)
    ensures Collapse(Trim(s)) == s
  {
    assert TrimStart(s) == s;
    assert TrimEnd(s) == s;
    CollapseFixed(s);
  }

  // ---------------------------------------------------------------------------
  // words

  /** The leading run of non-whitespace characters of `s`. */
  function Word(s: string): (w: string)
    ensures |w| <= |s| && w == s[..|w|]
    ensures forall i :: 0 <= i < |w| ==> !IsWs(w[i])
    ensures |w| < |s| ==> IsWs(s[|w|])
    ensures s != [] && !IsWs(s[0]) ==> w != []
  {
    if s == [] || IsWs(s[0]) then [] else [s[0]] + Word(s[1..])
  }

  /** The words of `s`: its maximal runs of non-whitespace characters, in order. */
  function Words(s: string): seq<string>
    decreases |s|
  {
    var t := TrimStart(s);
    if t == [] then []
    else
      var w := Word(t);
      [w] + Words(t[|w|..])
  }

  /** A word is non-empty and holds no whitespace. */
  predicate IsWord(w: string) {
    w != [] && forall j :: 0 <= j < |w| ==> !IsWs(w[j])
  }

  /** Every word of `s` is a non-empty run without whitespace. */
  lemma {:induction false} WordsAreWords(s: string)
    ensures forall i :: 0 <= i < |Words(s)| ==> IsWord(Words(s)[i])
    decreases |s|
  {
    var t := TrimStart(s);
    if t != [] {
      var w := Word(t);
      var rest := Words(t[|w|..]);
      WordsAreWords(t[|w|..]);
      assert Words(s) == [w] + rest;
      forall i | 0 <= i < |Words(s)|
        ensures IsWord(Words(s)[i])
      {
        if i > 0 {
          assert Words(s)[i] == rest[i - 1];
        }
      }
    }
  }

  lemma {:induction false} TrimStartIdempotent(s: string)
    ensures TrimStart(TrimStart(s)) == TrimStart(s)
  {
    if s != [] && IsWs(s[0]) {
      TrimStartIdempotent(s[1..]);
    }
  }

  /** Whitespace in front does not change the words. */
  lemma WordsTrimStart(s: string)
    ensures Words(TrimStart(s)) == Words(s)
  {
    TrimStartIdempotent(s);
  }

  /** A character in front of `y` either starts a word of its own or joins `y`'s first word. */
  lemma WordsCons(c: char, y: string)
    requires !IsWs(c)
    ensures y == [] || IsWs(y[0]) ==> Words([c] + y) == [[c]] + Words(y)
    ensures y != [] && !IsWs(y[0]) ==> Words(y) != [] && Words([c] + y) == [[c] + Words(y)[0]] + Words(y)[1..]
  {
    var s := [c] + y;
    assert s[1..] == y;
    if y != [] && !IsWs(y[0]) {
      var w := Word(y);
      assert Word(s) == [c] + w;
      assert s[|[c] + w|..] == y[|w|..];
    } else {
      assert Word(s) == [c];
    }
  }

  /** Leading whitespace does not start a word. */
  lemma WordsSkipWs(x: string)
    requires x != [] && IsWs(x[0])
    ensures Words(x) == Words(x[1..])
  {
    assert TrimStart(x) == TrimStart(x[1..]);
  }

  /** Trailing whitespace does not change the words. */
  lemma {:induction false} WordsAppendWs(a: string, b: string)
    requires forall i :: 0 <= i < |b| ==> IsWs(b[i])
    ensures Words(a + b) == Words(a)
    decreases |a|
  {
    if a == [] {
      assert a + b == b;
      AllWsTrimStart(b);
    } else {
      var y := a[1..];
      assert a + b == [a[0]] + (y + b);
      assert a == [a[0]] + y;
      WordsAppendWs(y, b);
      if IsWs(a[0]) {
        WordsSkipWs(a + b);
        WordsSkipWs(a);
      } else if y == [] {
        assert y + b == b;
        AllWsTrimStart(b);
        WordsCons(a[0], b);
        WordsCons(a[0], y);
      } else {
        assert (y + b)[0] == y[0];
        WordsCons(a[0], y + b);
        WordsCons(a[0], y);
      }
    }
  }

  lemma {:induction false} AllWsTrimStart(b: string)
    requires forall i :: 0 <= i < |b| ==> IsWs(b[i])
    ensures TrimStart(b) == [] && Words(b) == []
  {
    if b != [] {
      AllWsTrimStart(b[1..]);
    }
  }

  lemma WordsTrimEnd(s: string)
    ensures Words(TrimEnd(s)) == Words(s)
  {
    var t := TrimEnd(s);
    assert s == t + s[|t|..];
    WordsAppendWs(t, s[|t|..]);
  }

  /** Words in front of two strings with the same words and the same kind of first character agree. */
  lemma WordsConsCongruent(c: char, y: string, z: string)
    requires !IsWs(c)
    requires Words(y) == Words(z)
    requires y == [] <==> z == []
    requires y != [] && z != [] ==> (IsWs(y[0]) <==> IsWs(z[0]))
    ensures Words([c] + y) == Words([c] + z)
  {
    WordsCons(c, y);
    WordsCons(c, z);
  }

  /** A collapse is empty only for the empty string and keeps the kind of the first character. */
  lemma CollapseFront(y: string)
    ensures y == [] <==> Collapse(y) == []
    ensures y != [] ==> (IsWs(Collapse(y)[0]) <==> IsWs(y[0]))
  {
  }

  /** A collapse replaces whitespace runs only, so the words stay the same. */
  lemma {:induction false} WordsCollapse(s: string)
    ensures Words(Collapse(s)) == Words(s)
    decreases |s|
  {
    if s != [] && IsWs(s[0]) {
      WordsCollapse(TrimStart(s));
      WordsCollapseWs(s);
    } else if s != [] {
      assert s == [s[0]] + s[1..];
      WordsCollapse(s[1..]);
      WordsCollapseCons(s, s[0], s[1..]);
    }
  }

  /** A leading whitespace run collapses to one space, which starts no word. */
  lemma WordsCollapseWs(s: string)
    requires s != [] && IsWs(s[0])
    requires Words(Collapse(TrimStart(s))) == Words(TrimStart(s))
    ensures Words(Collapse(s)) == Words(s)
  {
    var z := Collapse(TrimStart(s));
    assert Collapse(s) == [' '] + z;
    assert ([' '] + z)[1..] == z;
    WordsSkipWs([' '] + z);
    WordsTrimStart(s);
  }

  /** A leading non-whitespace character survives a collapse, in front of the collapse of the rest. */
  lemma WordsCollapseCons(s: string, c: char, y: string)
    requires s == [c] + y && !IsWs(c)
    requires Words(Collapse(y)) == Words(y)
    ensures Words(Collapse(s)) == Words(s)
  {
    assert s[1..] == y;
    assert Collapse(s) == [c] + Collapse(y);
    CollapseFront(y);
    WordsConsCongruent(c, Collapse(y), y);
  }

  /** A tidy string stays tidy from any non-whitespace character on. */
  lemma TidySuffix(u: string, k: nat)
    requires Tidy(u) && k < |u| && !IsWs(u[k])
    ensures Tidy(u[k..])
  {
    var v := u[k..];
    assert v[|v| - 1] == u[|u| - 1];
    forall i | 0 <= i < |v| - 1
      ensures !(IsWs(v[i]) && IsWs(v[i + 1]))
    {
      assert v[i] == u[k + i] && v[i + 1] == u[k + i + 1];
    }
    forall i | 0 <= i < |v| && IsWs(v[i])
      ensures v[i] == ' '
    {
      assert v[i] == u[k + i];
    }
  }

  lemma JoinCons(w: string, vs: seq<string>, sep: string)
    requires vs != []
    ensures Join([w] + vs, sep) == w + sep + Join(vs, sep)
  {
    assert ([w] + vs)[1..] == vs;
  }

  /** The first word of a tidy string is followed by nothing or by one space and the next word. */
  lemma TidyFirstWord(u: string)
    requires Tidy(u) && u != []
    ensures !IsWs(u[0])
    ensures var w := Word(u);
      |w| == |u| || (|w| + 1 < |u| && u[|w|] == ' ' && !IsWs(u[|w| + 1]))
  {
    var w := Word(u);
    if |w| < |u| {
      assert IsWs(u[|w|]);
    }
  }

  /** A string that is one word has just that word. */
  lemma WordsWhole(u: string)
    requires u != [] && !IsWs(u[0]) && Word(u) == u
    ensures Words(u) == [u]
  {
    assert TrimStart(u) == u;
    assert u[|u|..] == [];
  }

  /** A word followed by one whitespace character and more text. */
  lemma WordsSplitAt(u: string)
    requires u != [] && !IsWs(u[0])
    requires |Word(u)| + 1 < |u| && !IsWs(u[|Word(u)| + 1])
    ensures Words(u) == [Word(u)] + Words(u[|Word(u)| + 1..])
  {
    var w := Word(u);
    assert TrimStart(u) == u;
    assert u[|w|..][1..] == u[|w| + 1..];
    WordsSkipWs(u[|w|..]);
  }

  /** A tidy string is its words joined by single spaces. */
  lemma {:induction false} TidyWords(u: string)
    requires Tidy(u)
    ensures u == Join(Words(u), " ")
    decreases |u|
  {
    if u != [] {
      var w := Word(u);
      TidyFirstWord(u);
      if |w| == |u| {
        WordsWhole(u);
      } else {
        var v := u[|w| + 1..];
        TidySuffix(u, |w| + 1);
        TidyWords(v);
        WordsSplitAt(u);
        WordsNonEmpty(v);
        JoinCons(w, Words(v), " ");
        SplitAround(u, |w|);
      }
    }
  }

  lemma SplitAround(u: string, k: nat)
    requires k < |u|
    ensures u == u[..k] + [u[k]] + u[k + 1..]
  {
  }

  /** A string that starts with a non-whitespace character has a word. */
  lemma WordsNonEmpty(v: string)
    requires v != [] && !IsWs(v[0])
    ensures Words(v) != []
  {
    assert TrimStart(v) == v;
  }

  /** `s.trim().replace(/\s+/g, ' ')` is the words of `s` joined by single spaces. */
  lemma TrimCollapseWords(s: string)
    ensures Collapse(Trim(s)) == Join(Words(s), " ")
  {
    var u := Collapse(Trim(s));
    TrimCollapseTidy(s);
    TidyWords(u);
    WordsCollapse(Trim(s));
    WordsTrimEnd(TrimStart(s));
    WordsTrimStart(s);
  }

  // ---------------------------------------------------------------------------
  // case

  function LowerChar(c: char): char {
    if IsUpper(c) then (c as int + 32) as char else c
  }

  /** `s.toLowerCase()` on the ASCII letters. */
  function ToLower(s: string): (r: string)
    ensures |r| == |s|
    ensures forall i :: 0 <= i < |s| ==> r[i] == LowerChar(s[i])
  {
    if s == [] then [] else [LowerChar(s[0])] + ToLower(s[1..])
  }

  lemma LowerCharWs(c: char)
    ensures IsWs(LowerChar(c)) <==> IsWs(c)
    ensures IsWs(c) ==> LowerChar(c) == c
    ensures !IsUpper(LowerChar(c))
    ensures LowerChar(LowerChar(c)) == LowerChar(c)
  {
  }

  /** Lower-casing keeps whitespace where it is, so a tidy string stays tidy. */
  lemma LowerTidy(s: string)
    requires Tidy(s)
    ensures Tidy(ToLower(s))
    ensures forall i :: 0 <= i < |s| ==> !IsUpper(ToLower(s)[i])
    ensures ToLower(ToLower(s)) == ToLower(s)
  {
    var t := ToLower(s);
    forall i | 0 <= i < |s|
      ensures (IsWs(t[i]) <==> IsWs(s[i])) && (IsWs(s[i]) ==> t[i] == s[i])
      ensures !IsUpper(t[i]) && LowerChar(t[i]) == t[i]
    {
      LowerCharWs(s[i]);
    }
  }

  lemma {:induction false} SqueezeLower(s: string)
    ensures Squeeze(ToLower(s)) == ToLower(Squeeze(s))
  {
    if s != [] {
      LowerCharWs(s[0]);
      SqueezeLower(s[1..]);
      assert ToLower(s)[1..] == ToLower(s[1..]);
      if !IsWs(s[0]) {
        assert ToLower([s[0]] + Squeeze(s[1..])) == [LowerChar(s[0])] + ToLower(Squeeze(s[1..]));
      }
    }
  }

  // ---------------------------------------------------------------------------
  // numbers

  function DigitChar(d: nat): char
    requires d < 10
  {
    "0123456789"[d]
  }

  /** The decimal digits of `n`, most significant first, without leading zeros. */
  function NatToString(n: nat): (r: string)
    ensures |r| >= 1 && '0' <= r[0] <= '9'
    ensures forall i :: 0 <= i < |r| ==> '0' <= r[i] <= '9'
    decreases n
  {
    if n < 10 then [DigitChar(n)] else NatToString(n / 10) + [DigitChar(n % 10)]
  }

  /** `String(n)` for an integer. */
  function IntToString(n: int): (r: string)
    ensures |r| >= 1 && (r[0] == '-' || '0' <= r[0] <= '9')
  {
    if n < 0 then "-" + NatToString(-n) else NatToString(n)
  }

  lemma DigitCharInjective(a: nat, b: nat)
    requires a < 10 && b < 10 && DigitChar(a) == DigitChar(b)
    ensures a == b
  {
  }

  /** Distinct numbers have distinct decimal forms. */
  lemma {:induction false} NatToStringInjective(a: nat, b: nat)
    requires NatToString(a) == NatToString(b)
    ensures a == b
    decreases a
  {
    if a < 10 && b < 10 {
      DigitCharInjective(a, b);
    } else if a >= 10 && b >= 10 {
      var sa := NatToString(a / 10);
      var sb := NatToString(b / 10);
      assert NatToString(a) == sa + [DigitChar(a % 10)];
      assert NatToString(b) == sb + [DigitChar(b % 10)];
      assert sa == NatToString(a)[..|sa|];
      assert |sa| == |sb|;
      assert sb == NatToString(b)[..|sb|];
      NatToStringInjective(a / 10, b / 10);
      DigitCharInjective(a % 10, b % 10);
    }
  }

  /** Distinct integers have distinct `String(n)` forms. */
  lemma IntToStringInjective(a: int, b: int)
    requires IntToString(a) == IntToString(b)
    ensures a == b
  {
    if a < 0 && b < 0 {
      assert NatToString(-a) == IntToString(a)[1..];
      assert NatToString(-b) == IntToString(b)[1..];
      NatToStringInjective(-a, -b);
    } else if a >= 0 && b >= 0 {
      NatToStringInjective(a, b);
    }
  }
}

=== FILE: transformations.dfy ===
/**
  src/utils/transformations.js: the item transform that tidies string fields,
  the collection transform that sorts by `id`, the identity fallbacks, and the
  registry that resolves configured names to transforms.
 */
module Transformations {
  import opened Wrappers
  import opened Text
  import opened Json

  // ---------------------------------------------------------------------------
  // normalizeStrings

  /** `/name/i.test(key)` */
  predicate LooksLikeName(key: string) {
    Contains(ToLower(key), "name")
  }

  /** The value `normalizeStrings` leaves under `key`: strings tidied (and lower-cased for names), the rest as is. */
  function NormalizeValue(key: string, v: Json): Json {
    if v.JStr? then
      var next := Collapse(Trim(v.s));
      JStr(if LooksLikeName(key) then ToLower(next) else next)
    else v
  }

  function NormalizeFields(fields: seq<Field>): (r: seq<Field>)
    ensures |r| == |fields|
    ensures forall i :: 0 <= i < |fields| ==> r[i] == (fields[i].0, NormalizeValue(fields[i].0, fields[i].1))
  {
    seq(|fields|, i requires 0 <= i < |fields| => (fields[i].0, NormalizeValue(fields[i].0, fields[i].1)))
  }

  /** What `normalizeStrings(item)` returns: a fresh object over the item's own fields. */
  function Normalized(item: Json): Json {
    JObj(NormalizeFields(OwnFields(item)))
  }

  /**
    `normalizeStrings(item)`: clones the item and rewrites each string entry of
    the clone. An object never holds a key twice, so the entry read at position
    `i` is the one `clone[key]` writes.
   */
  method NormalizeStrings(item: Json) returns (r: Json)
    ensures r == Normalized(item)
  {
    var clone := OwnFields(item);
    var entries := clone;
    for i := 0 to |entries|
      invariant |clone| == |entries|
      invariant clone[..i] == NormalizeFields(entries[..i])
      invariant clone[i..] == entries[i..]
    {
      clone := NormalizeEntry(clone, i);
      NormalizeFieldsSnoc(entries, i);
      assert clone[..i + 1] == clone[..i] + [clone[i]];
    }
    return JObj(clone);
  }

  /** One pass of the entry loop: a string entry is tidied in the clone, any other entry is left alone. */
  method NormalizeEntry(clone: seq<Field>, i: nat) returns (r: seq<Field>)
    requires i < |clone|
    ensures r == clone[i := (clone[i].0, NormalizeValue(clone[i].0, clone[i].1))]
  {
    r := clone;
    var (key, value) := clone[i];
    if value.JStr? {
      var next := Collapse(Trim(value.s));
      if LooksLikeName(key) {
        next := ToLower(next);
      }
      r := r[i := (key, JStr(next))];
    }
  }

  lemma NormalizeFieldsSnoc(fields: seq<Field>, i: nat)
    requires i < |fields|
    ensures NormalizeFields(fields[..i + 1]) == NormalizeFields(fields[..i]) + [(fields[i].0, NormalizeValue(fields[i].0, fields[i].1))]
  {
  }

  /** The normalised record has the item's keys, in the same order, and keeps them distinct. */
  lemma NormalizedKeys(item: Json)
    ensures Keys(Normalized(item).fields) == Keys(OwnFields(item))
    ensures DistinctKeys(OwnFields(item)) ==> DistinctKeys(Normalized(item).fields)
  {
  }

  /** Each key reads the normalised form of what it read before; a non-string value reads unchanged. */
  lemma {:induction false} NormalizedLookup(fields: seq<Field>, key: string)
    ensures Lookup(NormalizeFields(fields), key)
         == match Lookup(fields, key) case None => None case Some(v) => Some(NormalizeValue(key, v))
    ensures Lookup(fields, key).Some? && !Lookup(fields, key).value.JStr?
      ==> Lookup(NormalizeFields(fields), key) == Lookup(fields, key)
  {
    if fields != [] {
      assert NormalizeFields(fields)[1..] == NormalizeFields(fields[1..]);
      NormalizedLookup(fields[1..], key);
    }
  }

  /**
    Every string value comes out tidy: no leading or trailing whitespace, no
    whitespace run, spaces only. Its non-whitespace characters are the
    original's in order, lower-cased exactly when the key looks like a name.
   */
  lemma NormalizedString(key: string, s: string)
    ensures NormalizeValue(key, JStr(s)).JStr?
    ensures Tidy(NormalizeValue(key, JStr(s)).s)
    ensures !LooksLikeName(key) ==> Squeeze(NormalizeValue(key, JStr(s)).s) == Squeeze(s)
    ensures LooksLikeName(key) ==> Squeeze(NormalizeValue(key, JStr(s)).s) == ToLower(Squeeze(s))
    ensures LooksLikeName(key) ==>
      forall i :: 0 <= i < |NormalizeValue(key, JStr(s)).s| ==> !IsUpper(NormalizeValue(key, JStr(s)).s[i])
  {
    var next := Collapse(Trim(s));
    TrimCollapseTidy(s);
    SqueezeCollapse(Trim(s));
    SqueezeTrimEnd(TrimStart(s));
    SqueezeTrimStart(s);
    if LooksLikeName(key) {
      LowerTidy(next);
      SqueezeLower(next);
    }
  }

  /**
    A normalised string is the words of the original (its maximal runs of
    non-whitespace characters) joined by single spaces, lower-cased when the
    key looks like a name.
   */
  lemma NormalizedWords(key: string, s: string)
    ensures !LooksLikeName(key) ==> NormalizeValue(key, JStr(s)) == JStr(Join(Words(s), " "))
    ensures LooksLikeName(key) ==> NormalizeValue(key, JStr(s)) == JStr(ToLower(Join(Words(s), " ")))
  {
    TrimCollapseWords(s);
  }

  /** Normalising twice is normalising once. */
  lemma NormalizeValueIdempotent(key: string, v: Json)
    ensures NormalizeValue(key, NormalizeValue(key, v)) == NormalizeValue(key, v)
  {
    if v.JStr? {
      var next := Collapse(Trim(v.s));
      TrimCollapseTidy(v.s);
      TidyFixed(next);
      if LooksLikeName(key) {
        LowerTidy(next);
        TidyFixed(ToLower(next));
      }
    }
  }

  lemma NormalizedIdempotent(item: Json)
    ensures Normalized(Normalized(item)) == Normalized(item)
  {
    var f := Normalized(item).fields;
    forall i | 0 <= i < |f|
      ensures NormalizeValue(f[i].0, f[i].1) == f[i].1
    {
      NormalizeValueIdempotent(f[i].0, OwnFields(item)[i].1);
    }
  }

  // ---------------------------------------------------------------------------
  // sortById

  /** JavaScript `a < b` on strings: lexicographic, a proper prefix first. */
  predicate Less(a: string, b: string)
    decreases |a|
  {
    b != [] && (a == [] || a[0] < b[0] || (a[0] == b[0] && Less(a[1..], b[1..])))
  }

  lemma {:induction false} LessIrreflexive(a: string)
    ensures !Less(a, a)
  {
    if a != [] {
      LessIrreflexive(a[1..]);
    }
  }

  lemma {:induction false} LessTransitive(a: string, b: string, c: string)
    requires Less(a, b) && Less(b, c)
    ensures Less(a, c)
    decreases |a|
  {
    if a != [] && a[0] == b[0] && b[0] == c[0] {
      LessTransitive(a[1..], b[1..], c[1..]);
    }
  }

  lemma {:induction false} LessTotal(a: string, b: string)
    ensures a == b || Less(a, b) || Less(b, a)
    decreases |a|
  {
    if a != [] && b != [] && a[0] == b[0] {
      LessTotal(a[1..], b[1..]);
      if a[1..] == b[1..] {
        assert a == [a[0]] + a[1..] && b == [b[0]] + b[1..];
      }
    }
  }

  /** "Not after": `!(b < a)`, the order the sort produces. */
  lemma NotAfterTransitive(a: string, b: string, c: string)
    requires !Less(b, a) && !Less(c, b)
    ensures !Less(c, a)
  {
    if Less(c, a) {
      LessTotal(a, b);
      LessTotal(b, c);
      if a != b && b != c {
        LessTransitive(a, b, c);
        LessTransitive(a, c, a);
        LessIrreflexive(a);
      }
    }
  }

  /** The sort key: `String(item.id)` for an own, non-null `id`, otherwise `''`. */
  function IdKey(item: Json): string {
    match Member(item, "id")
    case Some(v) => if v.JNull? then "" else ToJsString(v)
    case None => ""
  }

  /** Ascending by `key`. */
  predicate Sorted(s: seq<Json>, key: Json -> string) {
    forall i, j :: 0 <= i < j < |s| ==> !Less(key(s[j]), key(s[i]))
  }

  /** The elements of `s` whose sort key is `k`, in order. */
  function WithKey(s: seq<Json>, key: Json -> string, k: string): seq<Json> {
    if s == [] then [] else (if key(s[0]) == k then [s[0]] else []) + WithKey(s[1..], key, k)
  }

  /** Puts `x` in front of the first element it does not come after. */
  function Insert(x: Json, s: seq<Json>, key: Json -> string): seq<Json> {
    if s == [] || !Less(key(s[0]), key(x)) then [x] + s
    else [s[0]] + Insert(x, s[1..], key)
  }

  /**
    The result of a stable sort by `key`, which is what `Array.prototype.sort`
    yields with a comparator that orders by `key` and calls equal keys equal.
   */
  function StableSort(s: seq<Json>, key: Json -> string): seq<Json> {
    if s == [] then [] else Insert(s[0], StableSort(s[1..], key), key)
  }

  /** `sortById(items)`: a copy of an array sorted by id key; `[]` for anything else. */
  function SortById(items: Json): seq<Json> {
    if items.JArr? then StableSort(items.elems, IdKey) else []
  }

  lemma {:induction false} InsertPermutes(x: Json, s: seq<Json>, key: Json -> string)
    ensures multiset(Insert(x, s, key)) == multiset([x] + s)
  {
    if s != [] && Less(key(s[0]), key(x)) {
      InsertPermutes(x, s[1..], key);
      assert s == [s[0]] + s[1..];
    }
  }

  lemma SortedTail(s: seq<Json>, key: Json -> string)
    requires s != [] && Sorted(s, key)
    ensures Sorted(s[1..], key)
  {
    forall i, j | 0 <= i < j < |s| - 1
      ensures !Less(key(s[1..][j]), key(s[1..][i]))
    {
      assert s[1..][i] == s[i + 1] && s[1..][j] == s[j + 1];
    }
  }

  lemma SortedCons(a: Json, t: seq<Json>, key: Json -> string)
    requires Sorted(t, key)
    requires forall y :: y in t ==> !Less(key(y), key(a))
    ensures Sorted([a] + t, key)
  {
    var r := [a] + t;
    forall i, j | 0 <= i < j < |r|
      ensures !Less(key(r[j]), key(r[i]))
    {
      assert r[j] == t[j - 1];
      if i > 0 {
        assert r[i] == t[i - 1];
      }
    }
  }

  lemma {:induction false} InsertMembers(x: Json, s: seq<Json>, key: Json -> string)
    ensures forall y :: y in Insert(x, s, key) <==> y == x || y in s
  {
    if s != [] && Less(key(s[0]), key(x)) {
      InsertMembers(x, s[1..], key);
      assert s == [s[0]] + s[1..];
    }
  }

  lemma {:induction false} InsertSorted(x: Json, s: seq<Json>, key: Json -> string)
    requires Sorted(s, key)
    ensures Sorted(Insert(x, s, key), key)
  {
    if s == [] {
      SortedCons(x, s, key);
    } else if !Less(key(s[0]), key(x)) {
      forall y | y in s
        ensures !Less(key(y), key(x))
      {
        var j :| 0 <= j < |s| && s[j] == y;
        if j > 0 {
          NotAfterTransitive(key(x), key(s[0]), key(y));
        }
      }
      SortedCons(x, s, key);
    } else {
      var t := Insert(x, s[1..], key);
      SortedTail(s, key);
      InsertSorted(x, s[1..], key);
      InsertMembers(x, s[1..], key);
      forall y | y in t
        ensures !Less(key(y), key(s[0]))
      {
        if y == x {
          if Less(key(x), key(s[0])) {
            LessTransitive(key(x), key(s[0]), key(x));
            LessIrreflexive(key(x));
          }
        } else {
          var j :| 0 <= j < |s[1..]| && s[1..][j] == y;
          assert s[j + 1] == y;
        }
      }
      SortedCons(s[0], t, key);
    }
  }

  lemma WithKeyCons(a: Json, t: seq<Json>, key: Json -> string, k: string)
    ensures WithKey([a] + t, key, k) == (if key(a) == k then [a] else []) + WithKey(t, key, k)
  {
    assert ([a] + t)[1..] == t;
  }

  /** Inserting never moves `x` past an element with the same key. */
  lemma {:induction false} InsertStable(x: Json, s: seq<Json>, key: Json -> string, k: string)
    ensures WithKey(Insert(x, s, key), key, k) == WithKey([x] + s, key, k)
  {
    if s != [] && Less(key(s[0]), key(x)) {
      var h, t := s[0], s[1..];
      assert s == [h] + t;
      assert Insert(x, s, key) == [h] + Insert(x, t, key);
      InsertStable(x, t, key, k);
      WithKeyCons(h, Insert(x, t, key), key, k);
      WithKeyCons(x, t, key, k);
      WithKeyCons(h, t, key, k);
      WithKeyCons(x, s, key, k);
      var rest := WithKey(t, key, k);
      if key(h) == k {
        LessIrreflexive(key(x));
        assert key(x) != k;
        assert WithKey(Insert(x, s, key), key, k) == [h] + rest;
      } else {
        assert WithKey(Insert(x, s, key), key, k) == WithKey([x] + t, key, k);
      }
    }
  }

  /** The output is ascending by `key` and is a permutation of the input. */
  lemma {:induction false} StableSortSortedPermutation(s: seq<Json>, key: Json -> string)
    ensures Sorted(StableSort(s, key), key)
    ensures multiset(StableSort(s, key)) == multiset(s)
  {
    if s != [] {
      StableSortSortedPermutation(s[1..], key);
      InsertSorted(s[0], StableSort(s[1..], key), key);
      InsertPermutes(s[0], StableSort(s[1..], key), key);
      assert s == [s[0]] + s[1..];
    }
  }

  /** Stability: the elements sharing any one key appear in their input order. */
  lemma {:induction false} StableSortStable(s: seq<Json>, key: Json -> string, k: string)
    ensures WithKey(StableSort(s, key), key, k) == WithKey(s, key, k)
  {
    if s != [] {
      StableSortStable(s[1..], key, k);
      InsertStable(s[0], StableSort(s[1..], key), key, k);
      WithKeyCons(s[0], StableSort(s[1..], key), key, k);
      WithKeyCons(s[0], s[1..], key, k);
      assert s == [s[0]] + s[1..];
    }
  }

  /** An input that is already in order comes back unchanged, so sorting twice is sorting once. */
  lemma {:induction false} StableSortFixed(s: seq<Json>, key: Json -> string)
    requires Sorted(s, key)
    ensures StableSort(s, key) == s
  {
    if s != [] {
      SortedTail(s, key);
      StableSortFixed(s[1..], key);
      if |s| > 1 {
        assert !Less(key(s[1]), key(s[0]));
      }
    }
  }

  /** `sortById`: `[]` off arrays; otherwise sorted by id key, a permutation, stable, and idempotent. */
  lemma SortByIdSpec(items: Json)
    ensures !items.JArr? ==> SortById(items) == []
    ensures items.JArr? ==> Sorted(SortById(items), IdKey) && multiset(SortById(items)) == multiset(items.elems)
    ensures items.JArr? ==> forall k :: WithKey(SortById(items), IdKey, k) == WithKey(items.elems, IdKey, k)
    ensures SortById(JArr(SortById(items))) == SortById(items)
  {
    if items.JArr? {
      StableSortSortedPermutation(items.elems, IdKey);
      forall k
        ensures WithKey(SortById(items), IdKey, k) == WithKey(items.elems, IdKey, k)
      {
        StableSortStable(items.elems, IdKey, k);
      }
      StableSortFixed(SortById(items), IdKey);
    }
  }

  // ---------------------------------------------------------------------------
  // the registry

  datatype ItemTransform = NormalizeStringsTransform | IdentityItemTransform

  datatype CollectionTransform = SortByIdTransform | IdentityItemsTransform

  /** `identityItems(items)` */
  function IdentityItems(items: Json): seq<Json> {
    if items.JArr? then items.elems else []
  }

  /** Applies a resolved item transform; `identityItem` returns the item itself. */
  function ApplyItem(t: ItemTransform, item: Json): Json {
    match t
    case NormalizeStringsTransform => Normalized(item)
    case IdentityItemTransform => item
  }

  function ApplyCollection(t: CollectionTransform, items: Json): seq<Json> {
    match t
    case SortByIdTransform => SortById(items)
    case IdentityItemsTransform => IdentityItems(items)
  }

  /**
    `getTransformFunctions(preName, postName)`: a registered name resolves to its
    transform; a falsy or unknown name falls back to identity. A name is looked
    up by its string form, as a property key is. An absent name is `null` here.
   */
  function GetTransformFunctions(preName: Json, postName: Json): (r: (ItemTransform, CollectionTransform))
    ensures r.0 == NormalizeStringsTransform <==> Truthy(preName) && ToJsString(preName) == "normalizeStrings"
    ensures r.1 == SortByIdTransform <==> Truthy(postName) && ToJsString(postName) == "sortById"
  {
    var pre := if Truthy(preName) && ToJsString(preName) == "normalizeStrings" then NormalizeStringsTransform else IdentityItemTransform;
    var post := if Truthy(postName) && ToJsString(postName) == "sortById" then SortByIdTransform else IdentityItemsTransform;
    (pre, post)
  }

  /** Both collection transforms keep the number of records of an array. */
  lemma ApplyCollectionLength(t: CollectionTransform, items: seq<Json>)
    ensures |ApplyCollection(t, JArr(items))| == |items|
  {
    if t.SortByIdTransform? {
      StableSortSortedPermutation(items, IdKey);
      assert |multiset(StableSort(items, IdKey))| == |multiset(items)|;
    }
  }

  /** The fallbacks change nothing: an item stays as it is, an array keeps its elements, anything else becomes `[]`. */
  lemma IdentityFallbacks(preName: Json, postName: Json, item: Json, items: Json)
    requires !Truthy(preName) || ToJsString(preName) != "normalizeStrings"
    requires !Truthy(postName) || ToJsString(postName) != "sortById"
    ensures ApplyItem(GetTransformFunctions(preName, postName).0, item) == item
    ensures ApplyCollection(GetTransformFunctions(preName, postName).1, items) == (if items.JArr? then items.elems else [])
  {
  }
}

=== FILE: wrappers.dfy ===
/** Option and Result, and the failures the modelled JavaScript code can raise. */
module Wrappers {

  datatype Option<+T> = None | Some(value: T) {
    function GetOr(default: T): T {
      match this
      case Some(v) => v
      case None => default
    }
  }

  /** A JavaScript exception, by the constructor the code throws it with. */
  datatype Failure =
    | TypeError(message: string)   // `throw new TypeError(...)`
    | PlainError(message: string)  // `throw new Error(...)`
    | NullPropertyRead             // the runtime's TypeError for reading a property of `null`

  datatype Result<+R> = Success(value: R) | Fail(failure: Failure)
}
